=== FILE: README.md ===
# IMLS harvest script — a verified model of `fetch()`

`data.gov_imls-gov.py` is a single-run download script. It reads the decoded
data.gov catalog `data/imls/imls-gov.json`. For each record it then:

- settles a directory `data/imls/<name>/`. An existing directory is reused. A
  missing one is created, and when creation fails the record falls back to
  `data/imls/`.
- fetches the record's harvest object. The object named by the first
  `extras` entry keyed `harvest_object_id` is downloaded from the harvest
  prefix plus the entry's value and saved at `<dir>` + `/data.json`, a path
  with a doubled slash.
- downloads every resource with a truthy url after a one-second cooldown,
  naming the file after its description or after the record name and
  lower-cased format.
- logs every step to the console and to `data/imls/log.txt`.

A record without `extras` or `resources` ends the whole run. A failed
download is logged and skipped.

This project models that run as a trace of events:

- log lines, each a `Line` whose `Render` gives the exact text;
- directory creations;
- cooldown sleeps;
- network requests.

The things the script asks the operating system and the network are inputs
(`Harvest.Env`). These are whether the log file opens, whether each record's
directory exists or can be created, and what size (or failure) each download
yields. The timestamps are parameters as well.

The modules:

- `Catalog` (`catalog.dfy`): the decoded catalog, with optional sections and
  Python truthiness.
- `Layout` (`layout.dfy`): the fixed paths, and the pure derivation of
  directories, file names and the harvest URL.
- `TitleCleaner` (`title.dfy`): the regular-expression substitution that
  cleans a title, written out character by character.
- `Decimal` (`decimal.dfy`): how a size is printed with `%s`, and reading it
  back.
- `RunLog` (`runlog.dfy`): log lines, events, the effects of a trace, and the
  pacing invariant of a trace.
- `Harvest` (`harvest.dfy`): the run as functions.
  - `HarvestRun` is the whole of `fetch()`.
  - `RecordStep` is one pass of the records loop.
  - `ResourceStep` is one pass of the resources loop.
  - `HarvestStage` is the `extras` scan.
  - Both loops are left folds of one generic `StepsUpTo`.
- `Plan` (`plan.dfy`): the harvest plan. This is an independent definition of
  the run's non-log effects (directory creations, sleeps, requests), computed
  from the catalog and the directory oracles alone. It comes with the proofs
  that the run does exactly that, up to the first record that fails.
- `Guarantees` (`guarantees.dfy`): whole-run properties, described below.
- `Fetcher` (`fetcher.dfy`): `fetch()` as the script runs it.
  - It has the records loop, the `found_harvest_object_id` flag and the
    resources loop, accumulating the trace.
  - Each method is proved to return exactly what the corresponding `Harvest`
    function describes.
- `Outcomes` (`outcomes.dfy`): what the log reports about each download. The
  line after the run's k-th request reports the oracle's k-th answer.
- `Findings` (`findings.dfy`): two places where the code as written does not
  do what it evidently intends.

The whole-run properties in `Guarantees` are:

- the order and pacing of requests;
- where files land;
- how the run ends;
- that early exits have no effects;
- that download outcomes never change what is requested.

The model follows the code as written, with one exception: a failed
download. As written, every failure branch of `getResource` logs through
`file_log`, a name local to `fetch()`, and so raises `NameError` (Findings,
row 2). `Harvest.GetResource` follows the intended form instead: it returns
`None`, and the run logs the `failed` line and carries on.
`Findings.GetResourceAsWritten` is the written form.

Two places where the model follows the written code rather than what the
messages suggest:

- The log is closed only after an unreadable catalog (line 106) and at the
  normal end (line 205). The aborts for a missing `extras` section, a harvest
  entry without a value and a missing `resources` section leave it open. So
  does a malformed catalog, which is an uncaught `ValueError` that logs
  nothing. `Run.logClosed` records exactly this.
- A missing `resources` section does not log its message. The `KeyError` at
  line 162 comes first (Findings, row 1). `Harvest.ResourcesStage` follows
  the written check, `Harvest.ResourcesGuardAsWritten`, and ends the run with
  no line. The intended check, `Harvest.ResourcesGuard`, is used only by
  `Findings.IntendedResourcesStage`.

## Model

| member | source | states |
|---|---|---|
| Layout.Lower | data.gov_imls-gov.py:176 | `str.lower()` keeps the length, leaves no upper-case ASCII letter, keeps every other character and shifts each upper-case letter by 32 |
| Layout.LowerIdempotent | data.gov_imls-gov.py:176 | lower-casing twice is lower-casing once |
| Layout.RecordDir | data.gov_imls-gov.py:114 | a record's directory is `data/imls/` followed by the record name and a `/` |
| Layout.Extension | data.gov_imls-gov.py:173-176 | an extension is a dot and at least one more character, with no upper-case ASCII letter |
| Layout.HarvestUrl | data.gov_imls-gov.py:144 | the harvest URL is the harvest-object prefix followed by exactly the entry's value |
| Layout.HarvestPath | data.gov_imls-gov.py:152 | the harvest object is saved at the directory followed by exactly `/data.json` |
| Layout.ExtensionIgnoresCase | data.gov_imls-gov.py:173-176 | the extension of a non-empty format is a dot followed by the lower-cased format, that of an empty or missing format is `.txt`, and so the format's letter case never changes it |
| Layout.ResourcePath | data.gov_imls-gov.py:183-186 | a resource's destination path starts with its record's directory path and is longer than it |
| Layout.DestinationFile | data.gov_imls-gov.py:173-186 | the destination is `dir + description` whenever the description is truthy, whatever the format; otherwise `dir + name + "." + lower(format)`, or `dir + name + ".txt"` when the format is missing or empty |
| Layout.ExampleFormatLowered | data.gov_imls-gov.py:113-186 | record `r1` with format `CSV` and no description saves to `data/imls/r1/r1.csv` |
| Layout.ExampleHarvestPath | data.gov_imls-gov.py:152 | the harvest object of `r1` goes to `data/imls/r1//data.json`, with the doubled slash the concatenation produces |
| TitleCleaner.Clean | data.gov_imls-gov.py:112 | the cleaned text has only ASCII letters, digits and `_`, never `__`, is no longer than its input, and is empty only for empty input; what it is exactly is `CleanIsSquashMark` |
| TitleCleaner.CleanTitle | data.gov_imls-gov.py:112 | the cleaned title has only ASCII alphanumerics and `_`, never contains `__`, is no longer than the title and is empty exactly when the title is; what it is exactly is `CleanTitleIsSquashMark` |
| TitleCleaner.CleanKeepsAlnums | data.gov_imls-gov.py:112 | cleaning keeps the alphanumeric characters, in order |
| TitleCleaner.CleanFixesClean | data.gov_imls-gov.py:112 | an already clean text is left unchanged |
| TitleCleaner.CleanTitleProperties | data.gov_imls-gov.py:112 | the cleaned title keeps the title's alphanumerics in order, and cleaning is idempotent |
| TitleCleaner.Mark | data.gov_imls-gov.py:112 | marking keeps the length, keeps each letter and digit in its place and puts `_` in place of every other character |
| TitleCleaner.CleanIsSquashMark | data.gov_imls-gov.py:112 | the scan equals the independent reference: mark every character outside `[0-9a-zA-Z]`, then squash each run of marks to one `_`; so each maximal run becomes exactly one `_` in its place |
| TitleCleaner.CleanTitleIsSquashMark | data.gov_imls-gov.py:112 | the cleaned title is the title's mark with each run of marks squashed to one `_` |
| TitleCleaner.ExampleCleanTitle | data.gov_imls-gov.py:112 | `a b` and `a, b` both clean to `a_b` |
| Decimal.DigitChar | data.gov_imls-gov.py:155 | a digit below 10 is printed as the digit character with that value |
| Decimal.NatToString | data.gov_imls-gov.py:155 | `%s` of a size is a non-empty string of digits without a leading zero |
| Decimal.ParseNatToString | data.gov_imls-gov.py:197 | reading the printed size back gives the size |
| RunLog.Effects | data.gov_imls-gov.py:38-42 | removing the log lines leaves a trace with no log line that is no longer than the original |
| RunLog.EffectsAppend | data.gov_imls-gov.py:110-200 | the effects of a concatenated trace are the concatenated effects |
| RunLog.PacedAppend | data.gov_imls-gov.py:167-200 | two paced traces concatenated are paced: each sleep precedes a resource request, each resource request follows a sleep, each request is answered by its line |
| Harvest.GetResource | data.gov_imls-gov.py:44-80 | a call with an empty url or path makes no request, returns `None` and consumes no answer; any other call makes exactly that one request, returns the oracle's answer to it and consumes one answer |
| Harvest.ChosenDir | data.gov_imls-gov.py:121-131 | the directory used is the record's own or the root, and starts with the root either way |
| Harvest.DirectoryEvents | data.gov_imls-gov.py:121-131 | a creation is attempted exactly when the directory does not exist; an existing directory gets exactly one event; a missing one gets at least two, the second being the created line exactly when creation succeeds; a failed creation ends with the warning naming the directory actually used |
| Harvest.FirstHarvest | data.gov_imls-gov.py:141-146 | what the scan finds is an `extras` entry keyed `harvest_object_id` |
| Harvest.HarvestFetch | data.gov_imls-gov.py:147-158 | the harvest fetch requests the harvest URL into `<dir>/data.json`, logs one line after it, consumes one answer and never ends the run |
| Harvest.HarvestStage | data.gov_imls-gov.py:141-158 | the scan ends the run only for a harvest entry without a value, and then with no event; otherwise it consumes one answer exactly when a harvest entry exists, and with none it has no event |
| Harvest.ResourceStep | data.gov_imls-gov.py:168-200 | a resource never ends the run; without a truthy url it only logs the no-url line and consumes no answer; with one its three events open with the cooldown sleep and close with a log line, and it consumes one answer |
| Harvest.ResourcesNeverEnd | data.gov_imls-gov.py:167-200 | the resources loop never ends the run and never moves the answer count backwards |
| Harvest.ResourcesGuard | data.gov_imls-gov.py:160-164 | the intended `resources` check never crashes and ends the record exactly when the section is missing |
| Harvest.ResourcesGuardAsWritten | data.gov_imls-gov.py:162-164 | the check as written never logs its message; it crashes exactly where the intended check would log and exit, and agrees with it otherwise |
| Harvest.ResourcesStage | data.gov_imls-gov.py:160-200 | the stage ends the run exactly when `resources` is missing, and then with no event, no answer consumed and reason `NoResources`; otherwise it runs the resources loop |
| Harvest.RecordBody | data.gov_imls-gov.py:133-200 | a record without `extras` logs only the missing-`extras` line and ends the run; a body that carries on had both sections; a body that ends the run names a missing section or a harvest entry without a value |
| Harvest.RecordStep | data.gov_imls-gov.py:111-200 | a record logs its title first and has at least one more event; if it does not end the run both sections were present, and if it does the reason is a record-level one |
| Harvest.RecordsEndForRecordReasons | data.gov_imls-gov.py:110-164 | the records loop ends the run only for a record-level reason |
| Harvest.StepsEndFor | data.gov_imls-gov.py:110 | a stretch of steps ends only for a reason some single step can end for |
| Harvest.HarvestRun | data.gov_imls-gov.py:82-205 | the log opens exactly when the oracle says so and the run ends for `NoLogFile` exactly when it does not; a closed log means `Done` or an unreadable catalog; `Done` needs a decoded catalog with results; the trace is never empty |
| Plan.FirstFailing | data.gov_imls-gov.py:110 | the first failing item found is a failing item below the bound, and no item before it (or before the bound, when none fails) fails |
| Plan.RequestsAppend | data.gov_imls-gov.py:110-200 | the requests of a concatenated trace are the concatenated requests |
| Plan.FirstHarvestPrefix | data.gov_imls-gov.py:141-143 | once a prefix of `extras` holds a harvest entry, later entries do not change which one is found |
| Plan.FirstHarvestNone | data.gov_imls-gov.py:141-143 | the scan finds nothing exactly when no entry is keyed `harvest_object_id` |
| Plan.FirstHarvestAt | data.gov_imls-gov.py:141-143 | a harvest entry with no harvest entry before it is the one found |
| Plan.FirstHarvestFound | data.gov_imls-gov.py:141-143 | what the scan finds is a harvest entry with no harvest entry before it |
| Plan.FirstHarvestIsFirst | data.gov_imls-gov.py:141-146 | the scan honours exactly the first entry keyed `harvest_object_id`, in both directions, and finds none exactly when there is none |
| Plan.RequestsOfPair | data.gov_imls-gov.py:192-193 | a cooldown followed by a request contributes exactly that request |
| Plan.ResourceStepFacts | data.gov_imls-gov.py:167-200 | one resource does exactly what the plan lists for it, advances the request count by its requests and never ends the run |
| Plan.PacedTriple | data.gov_imls-gov.py:192-200 | a cooldown, a resource request and its answering line form a paced trace |
| Plan.ResourceStepPaced | data.gov_imls-gov.py:178-200 | one resource's trace is paced: a skipped resource only logs; a fetched one sleeps, then requests, then logs a line of the kind that answers that request (which answer it reports is `Outcomes.ResourceStepReported`) |
| Plan.ResourcesFollowPlan | data.gov_imls-gov.py:167-200 | the resources loop does exactly the plan's sleeps and requests in list order, counts its requests, never ends the run and is paced |
| Plan.HarvestStageFacts | data.gov_imls-gov.py:141-158 | the scan ends the run exactly when the first harvest entry lacks a value, with no effect; otherwise it does the plan's single un-paced harvest request, or none |
| Plan.DirectoryPaced | data.gov_imls-gov.py:121-131 | the directory step only logs and creates, so its trace is paced |
| Plan.EffectsOfLine | data.gov_imls-gov.py:38-42 | a log line has no effect |
| Plan.EffectsOfOne | data.gov_imls-gov.py:38-42 | a single event's effect is itself unless it is a log line |
| Plan.DirectoryFacts | data.gov_imls-gov.py:121-131 | the directory step does exactly the plan's creation attempt and issues no request |
| Plan.LogOnlyFacts | data.gov_imls-gov.py:135-137 | a trace of log lines only has no effect and is paced |
| Plan.ResourcesStageFollowsPlan | data.gov_imls-gov.py:160-200 | the `resources` check and loop follow the plan and end the run exactly when the section is missing |
| Plan.BodyFollowsPlan | data.gov_imls-gov.py:133-200 | a record after its directory follows the plan and ends the run exactly for its failure reason |
| Plan.RecordStepFollowsPlan | data.gov_imls-gov.py:110-200 | one record does exactly its planned effects and ends the run exactly when it fails, with its reason |
| Plan.BodyPaced | data.gov_imls-gov.py:133-200 | a record's body is paced |
| Plan.RecordStepPaced | data.gov_imls-gov.py:110-200 | a record's whole trace is paced |
| Plan.StepsAbort | data.gov_imls-gov.py:110 | a stretch of steps ends with the reason of the first failing item, and otherwise does not end |
| Plan.StepsFollowPlans | data.gov_imls-gov.py:110 | a stretch of steps has exactly the concatenated plans, up to and including the first failing item |
| Plan.StepsCountRequests | data.gov_imls-gov.py:110 | a stretch of steps advances the request count by exactly its planned requests |
| Plan.StepsPaced | data.gov_imls-gov.py:110 | a stretch of paced steps is paced |
| Plan.RecordsFollowPlan | data.gov_imls-gov.py:110-200 | the records loop does exactly the plan of the records up to the first failing one, counts its requests, ends with that record's reason and is paced |
| Guarantees.DecodedHeadFacts | data.gov_imls-gov.py:89-102 | the three opening lines have no effect and are paced |
| Guarantees.DecodedRun | data.gov_imls-gov.py:99-205 | a decoded catalog runs the records loop after the opening lines and ends with the end line only when no record failed |
| Guarantees.HarvestRunFollowsPlan | data.gov_imls-gov.py:110-205 | a whole run over a decoded catalog has exactly the planned effects of its records up to the first failing one |
| Guarantees.HarvestRunOutcome | data.gov_imls-gov.py:135-137 | the run ends in `Abort` with the first failing record's reason, or in `Done`, and the log is closed exactly when it is `Done` (the aborts at 137, 144 and 162 leave it open) |
| Guarantees.HarvestRunShape | data.gov_imls-gov.py:202-205 | the run opens with its three lines; a `Done` run's last line is the end line and everything before it is paced; an aborted run is paced and never logs the end |
| Guarantees.EarlyExitsTouchNothing | data.gov_imls-gov.py:88-110 | an unopenable log, an unreadable or malformed catalog, or missing results end the run before any effect, each with its reason, and only the unreadable catalog closes the log |
| Guarantees.PlansAgree | data.gov_imls-gov.py:110 | plans built from equal per-item plans are equal |
| Guarantees.ResponsesDoNotSteer | data.gov_imls-gov.py:154-158 | download outcomes never change the run's effects, how it ends or whether the log is closed: the failures `getResource` catches are swallowed per item (also 196-200) |
| Guarantees.DirectoryPolicy | data.gov_imls-gov.py:121-131 | the record's own directory is used exactly when it exists or can be created, the root otherwise, and an existing directory gets no creation attempt |
| Guarantees.DirectoryLines | data.gov_imls-gov.py:121-131 | the directory step logs the found line for an existing directory, the created line after a successful creation, and after a failed one the error line for the record's directory followed by the warning naming the root, which is the directory then used |
| Guarantees.PlansRequestsOk | data.gov_imls-gov.py:110 | a property of every request of every item holds of every request of the stretch |
| Guarantees.ResourceItemRequests | data.gov_imls-gov.py:178-193 | a resource's requests are ordinary downloads whose path starts with the record's directory |
| Guarantees.ResourcePlanRequests | data.gov_imls-gov.py:167-193 | every request of the resources loop is an ordinary download whose path starts with the record's directory |
| Guarantees.HarvestPlanRequests | data.gov_imls-gov.py:141-152 | the scan issues at most one request, exactly when a harvest entry exists, as a harvest fetch whose path starts with the directory |
| Guarantees.BodyRequests | data.gov_imls-gov.py:141-193 | within a record every request's path starts with its directory, only the first may be the harvest fetch, and it is exactly when a harvest entry exists |
| Guarantees.RecordRequests | data.gov_imls-gov.py:121-193 | every request of a record has a path starting with its chosen directory; the harvest fetch comes first, and exactly when a harvest entry exists |
| Guarantees.SuccessLineRecordsSize | data.gov_imls-gov.py:197 | a success line carries the download status prefix, then the size in digits, then ` bytes`, and reading the digits back gives the size |
| Guarantees.OutcomeLinesDiffer | data.gov_imls-gov.py:153-158 | the success and `failed` lines of one download share their status prefix and differ at the character right after it, for resources (also 195-200) and the harvest object |
| Guarantees.StepsOfOne | data.gov_imls-gov.py:110 | a stretch of one item is that item's step |
| Guarantees.ExampleRecordStep | data.gov_imls-gov.py:110-200 | record `r1` with one `bin` resource and a directory to create logs its title, creates `data/imls/r1/`, sleeps once and saves `data/imls/r1/r1.bin` |
| Guarantees.ExampleSingleRecordRun | data.gov_imls-gov.py:82-205 | a catalog of that one record ends `Done` with the log closed and exactly that trace between the opening and end lines |
| Fetcher.FetchHarvestObject | data.gov_imls-gov.py:141-158 | the `extras` loop with its `found_harvest_object_id` flag produces exactly the harvest scan, stopping at a harvest entry without a value |
| Fetcher.FetchResources | data.gov_imls-gov.py:167-200 | the resources loop produces exactly the resources fold |
| Fetcher.FetchBody | data.gov_imls-gov.py:133-200 | the `extras` check, the scan, the written `resources` check (a missing section ends the run with no line) and the resources loop produce exactly the record body |
| Fetcher.FetchRecord | data.gov_imls-gov.py:111-200 | one pass of the records loop, with `res_dir` reassigned on fallback, produces exactly the record step, so its trace is the planned one |
| Fetcher.FetchRecords | data.gov_imls-gov.py:110-200 | the records loop produces exactly the records fold, stopping at the first record that ends the run |
| Fetcher.Fetch | data.gov_imls-gov.py:82-205 | `fetch()` produces exactly the modelled run, so every guarantee above holds of it |
| Fetcher.RecordsUpToNext | data.gov_imls-gov.py:110 | one more record extends the records loop by that record's step, unless the run has ended |
| Fetcher.StepsStopped | data.gov_imls-gov.py:110 | once a step has ended a stretch, later items change nothing |
| Fetcher.RecordsStopped | data.gov_imls-gov.py:135-137 | once a record has ended the run, no later record does anything (also 162-164) |
| Outcomes.ReportsSuccessIff | data.gov_imls-gov.py:153-158 | a line reporting an answer is a success line exactly when the answer is a non-empty file, and then carries its size; it is the `failed` line exactly when the download failed or the file is empty (also 195-200) |
| Outcomes.RequestsOfEffects | data.gov_imls-gov.py:38-42 | dropping the log lines keeps every request, in order |
| Outcomes.NoRequests | data.gov_imls-gov.py:38-42 | a trace without requests has none to list and none to report |
| Outcomes.ReportedAppend | data.gov_imls-gov.py:110-200 | two reporting traces concatenated report, the second one's requests numbered after the first one's |
| Outcomes.ResourceStepReported | data.gov_imls-gov.py:190-200 | the line after a resource request reports the oracle's answer to it, and the step consumes exactly its requests' answers |
| Outcomes.HarvestStageReported | data.gov_imls-gov.py:147-158 | the line after the harvest request reports the oracle's answer to it, and the scan consumes exactly its requests' answers |
| Outcomes.StepsReported | data.gov_imls-gov.py:110 | a stretch of reporting steps reports, and consumes exactly its requests' answers |
| Outcomes.ReportedJoin | data.gov_imls-gov.py:110 | two reporting stretches, the second counting on from where the first stopped, join into one reporting stretch that counts all their requests |
| Outcomes.ResourcesReported | data.gov_imls-gov.py:167-200 | the resources loop reports every download's answer |
| Outcomes.BodyReported | data.gov_imls-gov.py:133-200 | a record's harvest fetch and resources report their answers |
| Outcomes.RecordStepReported | data.gov_imls-gov.py:111-200 | one record reports every answer and consumes exactly its requests' answers |
| Outcomes.RecordsReported | data.gov_imls-gov.py:110-200 | the records loop reports every answer, its first request being the run's first |
| Outcomes.FramedReported | data.gov_imls-gov.py:89-110 | log lines before and after a reporting trace keep it reporting, with the requests numbered as before |
| Outcomes.RunReportsResponses | data.gov_imls-gov.py:82-205 | in a whole run the line after the k-th request is a success line with size n exactly when the oracle's k-th answer is a file of n > 0 bytes, and the `failed` line otherwise |
| Findings.IntendedResourcesStage | data.gov_imls-gov.py:160-164 | the intended check logs the missing-section line and ends the run exactly when the section is missing, where the written stage ends at the same point and answer count with no line; otherwise the two agree |
| Findings.MissingResourcesNeverLogged | data.gov_imls-gov.py:162-164 | for a record without `resources` the written check crashes and the stage logs nothing, while the intended check and stage log the missing-section line |
| Findings.GetResourceAsWritten | data.gov_imls-gov.py:44-80 | as written, `getResource` raises `NameError` exactly when a request is made and fails; otherwise it agrees with the intended `getResource` |
| Findings.FailedDownloadCrashes | data.gov_imls-gov.py:192-200 | a failed download crashes the run as written, while the intended run sleeps, requests, logs `failed` and carries on |

## Left out

- The network (`urllib2`), the file write and `os.path.getsize` (lines
  54-76) are one oracle, `Env.response`. It answers the size of the k-th
  download of the run, or `None`. The HTTP status codes and messages are not
  modelled.
- `Env.response`'s `None` stands only for the failures `getResource` catches:
  an HTTP error, a URL error and a failed save (lines 57-78). Other failures
  escape it and end the run with no `failed` line, and the model does not
  capture them. A url with no scheme at all (no `type:` prefix) makes
  `urllib2` raise `ValueError` (lines 54-56), which neither `except` clause
  catches. A url whose scheme no handler knows is a `URLError`, caught at
  line 63, so it is covered by `None`. A socket error while reading the body
  (line 68, in the `else` clause) is uncaught.
- Harvest.GetResource: returns the intended `None` on a failed download. The
  `NameError` the written code raises there (lines 59, 61, 64, 78), which
  ends the run, is not part of `HarvestRun`; only
  `Findings.GetResourceAsWritten` shows it. The error lines those branches
  mean to log are not modelled.
- `os.path.exists` and `os.makedirs` (lines 121-123) are the oracles
  `Env.dirExists` and `Env.mkdirOk`, indexed by record. A name shared by two
  records is not tied to one answer.
- Opening the catalog and `json.load` (lines 99-101) become the input
  `CatalogInput`. It is an unreadable file, a malformed document (an uncaught
  `ValueError`, so nothing is logged), or a decoded catalog.
- A missing `result` key and a missing `results` key (line 110) are one case,
  `Decoded(None)`. Each is an uncaught `KeyError` after the "Read in file"
  line.
- A record missing `title` or `name`, an `extras` entry without `key` but of
  another type, and values that are not strings are not modelled. The model
  takes the catalog to have the shape the script reads.
- `time.strftime` (lines 85, 202) is the two timestamp parameters.
  `time.sleep` (line 192) is a `Sleep` event.
- `printOut` (lines 38-42) is a `Log` event. The console copy and the
  newline written before each line in the file are not spelled out.
  `Render` gives each line's text.
- `sys.exit()` and the uncaught exceptions become `Abort` with a reason.
  The process exit status is not modelled.
- Text encoding: after `json.load` the catalog's strings are Python 2
  `unicode`, and `printOut` writes them to a log file opened in text mode
  (lines 42, 89). A title, name, url or description with a non-ASCII
  character therefore raises `UnicodeEncodeError` at its first write, the
  title line at 116 for a title, and ends the run. The model treats every
  string as printable and does not capture this crash.
- `Layout.Lower` lower-cases ASCII letters only. Python's `str.lower()`
  also maps non-ASCII letters.
- The cleaned title (line 112) is computed and never used by the script. It
  is modelled on its own in `TitleCleaner`.

## Findings

| source | as written | input that shows it | evidently intended | confidence | as-written member | corrected member |
|---|---|---|---|---|---|---|
| data.gov_imls-gov.py:162-164 | the test that `resources` is absent is joined by `and` to a lookup of `res["resources"]`, so when the section is absent the lookup raises `KeyError` and the message at 163 is never logged | a record with `extras` and no `resources` key | log "Missing 'resources' section" and exit when the section is absent | high (not executed) | Harvest.ResourcesGuardAsWritten | Harvest.ResourcesGuard |
| data.gov_imls-gov.py:57-78 | every failure branch of `getResource` logs through `file_log`, which is local to `fetch()` (line 89), so a 404, an unreachable host or a failed save raises `NameError` and ends the run | any resource whose url returns HTTP 404 | log the failure and return `None`, so that the loop logs "failed" and continues | high (not executed) | Findings.GetResourceAsWritten | Guarantees.ResponsesDoNotSteer |

=== FILE: catalog.dfy ===
/**
 * The decoded catalog document `{ "result": { "results": [ ... ] } }`, as the
 * harvest script sees it after `json.load`. A member the JSON object may lack
 * is an `Option`.
 */
module Catalog {
  import opened Wrappers

  /** One `{ "key": ..., "value": ... }` entry of a record's `extras` list. */
  datatype Extra = Extra(key: Option<string>, value: Option<string>)

  /** One entry of a record's `resources` list. */
  datatype ResourceRef = ResourceRef(url: Option<string>, format: Option<string>, description: Option<string>)

  /** One catalog entry; `extras` and `resources` may be missing. */
  datatype Record = Record(title: string, name: string, extras: Option<seq<Extra>>, resources: Option<seq<ResourceRef>>)

  /**
   * What reading the catalog file yields: the file cannot be opened, its
   * contents are not JSON, or a decoded document whose `result.results`
   * list may be missing.
   */
  datatype CatalogInput = Unreadable | Malformed | Decoded(results: Option<seq<Record>>)

  /** Python truthiness of an optional string: present and not empty. */
  predicate Truthy(s: Option<string>)
  {
    s.Some? && s.value != ""
  }
}

=== FILE: decimal.dfy ===
/** Decimal rendering of a natural number, as `"%s" % n` prints a Python int. */
module Decimal {

  predicate IsDigit(c: char)
  {
    '0' <= c <= '9'
  }

  function DigitChar(d: nat): (c: char)
    requires d < 10
    ensures IsDigit(c) && c as int - '0' as int == d
  {
    (d + '0' as int) as char
  }

  function NatToString(n: nat): (s: string)
    ensures |s| >= 1
    ensures forall i :: 0 <= i < |s| ==> IsDigit(s[i])
    ensures |s| > 1 ==> s[0] != '0'
  {
    if n < 10 then [DigitChar(n)] else NatToString(n / 10) + [DigitChar(n % 10)]
  }

  /** Reads a string of digits back as a number. */
  function ParseDecimal(s: string): nat
    requires forall i :: 0 <= i < |s| ==> IsDigit(s[i])
  {
    if s == [] then 0
    else
      assert IsDigit(s[|s| - 1]);
      ParseDecimal(s[..|s| - 1]) * 10 + (s[|s| - 1] as int - '0' as int)
  }

  lemma {:induction false} ParseNatToString(n: nat)
    ensures ParseDecimal(NatToString(n)) == n
  {
    if n >= 10 {
      ParseNatToString(n / 10);
      var s := NatToString(n);
      assert s[..|s| - 1] == NatToString(n / 10);
    }
  }
}

=== FILE: fetcher.dfy ===
/**
 * `fetch()` as the script runs it: a loop over the catalog's records, and in
 * each record a scan of `extras` for the harvest entry and a loop over
 * `resources`, accumulating the trace as it goes. Each method is proved to
 * produce exactly the run its specification function describes, so every
 * guarantee proved about that function holds of the loops.
 */
module Fetcher {
  import opened Wrappers
  import opened Catalog
  import opened Layout
  import opened RunLog
  import opened Harvest
  import opened Plan

  /** The scan of `extras` with its `found_harvest_object_id` flag. */
  method FetchHarvestObject(extras: seq<Extra>, dir: string, env: Env, k: nat) returns (s: Step)
    ensures s == HarvestStage(extras, dir, env, k)
  {
    var found := false;
    var events: seq<Event> := [];
    var next := k;
    var j := 0;
    while j < |extras|
      invariant 0 <= j <= |extras|
      invariant found <==> FirstHarvest(extras[..j]).Some?
      invariant !found ==> events == [] && next == k
      invariant found ==> Step(events, next, None) == HarvestStage(extras[..j], dir, env, k)
    {
      var extra := extras[j];
      assert extras[..j + 1][..j] == extras[..j];
      if IsHarvestEntry(extra) && !found {
        if extra.value.None? {
          FirstHarvestPrefix(extras, j + 1);
          return Step([], k, Some(NoHarvestValue));
        }
        var f := GetResource(HarvestObject, HarvestUrl(extra.value.value), HarvestPath(dir), env, k);
        var line := if Succeeded(f.resp) then HarvestSucceeded(f.resp.value) else HarvestFailed;
        events := f.events + [Log(line)];
        next := f.next;
        found := true;
      }
      j := j + 1;
    }
    assert extras[..j] == extras;
    s := Step(events, next, None);
  }

  /** The loop over a record's `resources`, with its cooldown before each download. */
  method FetchResources(rs: seq<ResourceRef>, dir: string, name: string, env: Env, k: nat) returns (s: Step)
    ensures s == ResourcesUpTo(rs, |rs|, dir, name, env, k)
  {
    var events: seq<Event> := [];
    var next := k;
    var j := 0;
    while j < |rs|
      invariant 0 <= j <= |rs|
      invariant Step(events, next, None) == ResourcesUpTo(rs, j, dir, name, env, k)
    {
      var r := rs[j];
      if !Truthy(r.url) {
        events := events + [Log(NoUrl)];
      } else {
        var url := r.url.value;
        var path := ResourcePath(dir, name, r);
        var f := GetResource(Resource, url, path, env, next);
        var line := if Succeeded(f.resp) then ResourceSucceeded(url, path, f.resp.value) else ResourceFailed(url, path);
        events := events + ([Sleep(CooldownTime)] + f.events + [Log(line)]);
        next := f.next;
      }
      j := j + 1;
    }
    s := Step(events, next, None);
  }

  /** A record once its directory is settled: the `extras` check, the harvest scan, the `resources` check and loop. */
  method FetchBody(rec: Record, dir: string, env: Env, k: nat) returns (b: Step)
    ensures b == RecordBody(rec, dir, env, k)
  {
    if rec.extras.None? {
      return Step([Log(MissingExtrasNote)], k, Some(NoExtras));
    }
    var h := FetchHarvestObject(rec.extras.value, dir, env, k);
    if h.abort.Some? {
      return h;
    }
    if ResourcesGuardAsWritten(rec) == Crash {
      assert h.events + [] == h.events;
      return Step(h.events, h.next, Some(NoResources));
    }
    var r := FetchResources(rec.resources.value, dir, rec.name, env, h.next);
    ResourcesFollowPlan(rec.resources.value, dir, rec.name, env, h.next);
    assert ResourcesStage(rec, dir, env, h.next) == r;
    b := Step(h.events + r.events, r.next, None);
  }

  /** One pass of the records loop: the title, the directory, then the rest of the record. */
  method FetchRecord(rec: Record, i: nat, env: Env, k: nat) returns (t: Step)
    ensures t == RecordStep(rec, i, env, k)
  {
    var dir := RecordDir(rec.name);
    var events := [Log(FoundTitle(rec.title))];
    if !env.dirExists(i) {
      events := events + [MakeDirs(dir)];
      if env.mkdirOk(i) {
        events := events + [Log(CreatedDir(dir))];
      } else {
        events := events + [Log(CantCreateDir(dir))];
        dir := FilePath;
        events := events + [Log(WritingToParent(dir))];
      }
    } else {
      events := events + [Log(FoundExistingDir(dir))];
    }
    assert events == [Log(FoundTitle(rec.title))] + DirectoryEvents(rec.name, i, env);
    assert dir == ChosenDir(rec.name, i, env);
    var b := FetchBody(rec, dir, env, k);
    t := Step(events + b.events, b.next, b.abort);
  }

  /** The records loop: each record in catalog order, until one of them ends the run. */
  method FetchRecords(recs: seq<Record>, env: Env) returns (s: Step)
    ensures s == RecordsUpTo(recs, |recs|, env)
  {
    var events: seq<Event> := [];
    var next := 0;
    var j := 0;
    while j < |recs|
      invariant 0 <= j <= |recs|
      invariant Step(events, next, None) == RecordsUpTo(recs, j, env)
    {
      var t := FetchRecord(recs[j], j, env, next);
      RecordsUpToNext(recs, j, env);
      if t.abort.Some? {
        RecordsStopped(recs, j + 1, |recs|, env);
        return Step(events + t.events, t.next, t.abort);
      }
      events := events + t.events;
      next := t.next;
      j := j + 1;
    }
    s := Step(events, next, None);
  }

  /** `fetch()`: open the log, read the catalog, then the records loop and the end line. */
  method Fetch(env: Env, input: CatalogInput, startTime: string, endTime: string) returns (run: Run)
    ensures run == HarvestRun(env, input, startTime, endTime)
  {
    if !env.logOpens {
      return Run([Log(LogUnwritable(FilePath + LogFileName)), Log(ExitingUnlogged)], Abort(NoLogFile), false, false);
    }
    var trace := Preamble(startTime);
    match input {
      case Unreadable =>
        run := Run(trace + [Log(CantOpen(FileLocation)), Log(Exiting)], Abort(CatalogUnreadable), true, true);
      case Malformed =>
        run := Run(trace, Abort(CatalogMalformed), true, false);
      case Decoded(results) =>
        trace := trace + [Log(ReadIn(FileLocation))];
        if results.None? {
          return Run(trace, Abort(NoResults), true, false);
        }
        var s := FetchRecords(results.value, env);
        if s.abort.Some? {
          return Run(trace + s.events, Abort(s.abort.value), true, false);
        }
        run := Run(trace + s.events + [Log(Ended(endTime))], Done, true, true);
    }
  }

  /** One more record extends the records loop by that record's step, unless the run has ended. */
  lemma RecordsUpToNext(recs: seq<Record>, j: nat, env: Env)
    requires j < |recs|
    ensures var s := RecordsUpTo(recs, j, env);
      RecordsUpTo(recs, j + 1, env) ==
        if s.abort.Some? then s
        else var t := RecordStep(recs[j], j, env, s.next); Step(s.events + t.events, t.next, t.abort)
  {
  }

  /** Once a step has ended a stretch, later items change nothing. */
  lemma {:induction false} StepsStopped<T>(xs: seq<T>, j: nat, n: nat, k: nat, step: (T, nat, nat) -> Step)
    requires j <= n <= |xs|
    requires StepsUpTo(xs, j, k, step).abort.Some?
    ensures StepsUpTo(xs, n, k, step) == StepsUpTo(xs, j, k, step)
  {
    if n > j {
      StepsStopped(xs, j, n - 1, k, step);
    }
  }

  /** Once a record has ended the run, later records change nothing. */
  lemma RecordsStopped(recs: seq<Record>, j: nat, n: nat, env: Env)
    requires j <= n <= |recs|
    requires RecordsUpTo(recs, j, env).abort.Some?
    ensures RecordsUpTo(recs, n, env) == RecordsUpTo(recs, j, env)
  {
    var step := (rec, i, k) => RecordStep(rec, i, env, k);
    StepsStopped(recs, j, n, 0, step);
  }
}

=== FILE: findings.dfy ===
/**
 * Two places where the script, as written, does not do what its own code
 * evidently intends. Each is modelled twice: as written, and as intended.
 * The run in `Harvest` follows the written `resources` check, and the
 * intended `getResource`, which returns `None` on failure.
 */
module Findings {
  import opened Wrappers
  import opened Catalog
  import opened Layout
  import opened RunLog
  import opened Harvest

  /**
   * The `resources` check as intended, then the resources loop: a missing
   * section logs its line before the run ends. The run itself follows the
   * check as written (`Harvest.ResourcesStage`), which ends the run at the
   * same point without the line.
   */
  function IntendedResourcesStage(rec: Record, dir: string, env: Env, k: nat): (t: Step)
    ensures t.abort.Some? <==> ResourcesGuard(rec) == LoggedExit
    ensures ResourcesGuard(rec) == LoggedExit ==>
      && t.events == [Log(MissingResourcesNote)]
      && ResourcesStage(rec, dir, env, k) == Step([], t.next, t.abort)
    ensures ResourcesGuard(rec) == Proceed ==> t == ResourcesStage(rec, dir, env, k)
  {
    if ResourcesGuard(rec) == LoggedExit then Step([Log(MissingResourcesNote)], k, Some(NoResources))
    else ResourcesStage(rec, dir, env, k)
  }

  /** A record without `resources`: the intended check logs and exits, the written one crashes silently. */
  lemma MissingResourcesNeverLogged()
    ensures var rec := Record("Museum survey", "museum-survey", Some([]), None);
      var env := Env(true, n => true, n => true, n => None);
      && ResourcesGuardAsWritten(rec) == Crash
      && ResourcesGuard(rec) == LoggedExit
      && ResourcesStage(rec, RecordDir(rec.name), env, 0).events == []
      && IntendedResourcesStage(rec, RecordDir(rec.name), env, 0).events == [Log(MissingResourcesNote)]
  {
  }

  /** What a call of `getResource` as written comes to: a value, or a `NameError` after its request. */
  datatype Attempt = Returned(fetched: Fetched) | NameErrorRaised(events: seq<Event>)

  /**
   * `getResource` as written: every failure branch (an HTTP error, a URL
   * error, a failed save) logs through `file_log`, a name local to `fetch()`,
   * so it raises `NameError` instead of returning `None`. Only a skipped
   * call and a completed download return.
   */
  function GetResourceAsWritten(kind: FetchKind, url: string, path: string, env: Env, k: nat): (a: Attempt)
    ensures a.NameErrorRaised? <==> url != "" && path != "" && env.response(k).None?
    ensures a.Returned? ==> a.fetched == GetResource(kind, url, path, env, k)
    ensures a.NameErrorRaised? ==>
      a.events == GetResource(kind, url, path, env, k).events && GetResource(kind, url, path, env, k).resp.None?
  {
    if url == "" || path == "" then Returned(Fetched([], None, k))
    else
      match env.response(k)
      case None => NameErrorRaised([Request(Req(kind, url, path))])
      case Some(size) => Returned(Fetched([Request(Req(kind, url, path))], Some(size), k + 1))
  }

  /**
   * A resource whose download fails: as written the run dies with `NameError`;
   * as intended it logs the `failed` line and carries on.
   */
  lemma FailedDownloadCrashes()
    ensures var env := Env(true, n => true, n => true, n => None);
      var r := ResourceRef(Some("https://example.org/a.csv"), Some("CSV"), None);
      var dir := RecordDir("r1");
      var path := ResourcePath(dir, "r1", r);
      && GetResourceAsWritten(Resource, "https://example.org/a.csv", path, env, 0).NameErrorRaised?
      && ResourceStep(r, dir, "r1", env, 0).events
         == [Sleep(CooldownTime), Request(Req(Resource, "https://example.org/a.csv", path)),
             Log(ResourceFailed("https://example.org/a.csv", path))]
      && ResourceStep(r, dir, "r1", env, 0).abort.None?
  {
  }
}

=== FILE: guarantees.dfy ===
/**
 * What a whole run of the harvest script guarantees: it does exactly what
 * the harvest plan lists and stops at the first record that fails; a failed
 * download never changes that; every file lands in the record's chosen
 * directory; and the early exits touch nothing.
 */
module Guarantees {
  import opened Wrappers
  import opened Catalog
  import opened Layout
  import opened Decimal
  import opened RunLog
  import opened Harvest
  import opened Plan

  /** The lines a run over a decoded catalog prints before its first record. */
  function DecodedHead(startTime: string): seq<Event>
  {
    Preamble(startTime) + [Log(ReadIn(FileLocation))]
  }

  lemma DecodedHeadFacts(startTime: string)
    ensures Effects(DecodedHead(startTime)) == [] && Paced(DecodedHead(startTime)) && |DecodedHead(startTime)| == 3
  {
    LogOnlyFacts(DecodedHead(startTime));
  }

  /** A run over a decoded catalog ends the run where its records do; the end line follows the last record. */
  lemma DecodedRun(env: Env, recs: seq<Record>, startTime: string, endTime: string)
    requires env.logOpens
    ensures var s := RecordsUpTo(recs, |recs|, env);
      HarvestRun(env, Decoded(Some(recs)), startTime, endTime) ==
        if s.abort.Some? then Run(DecodedHead(startTime) + s.events, Abort(s.abort.value), true, false)
        else Run(DecodedHead(startTime) + s.events + [Log(Ended(endTime))], Done, true, true)
  {
  }

  /** The effects of a run over a decoded catalog with `results` are those of its records' plans. */
  lemma HarvestRunFollowsPlan(env: Env, recs: seq<Record>, startTime: string, endTime: string)
    requires env.logOpens
    ensures Effects(HarvestRun(env, Decoded(Some(recs)), startTime, endTime).events) == PlanUpTo(recs, |recs|, env)
  {
    var head := DecodedHead(startTime);
    var s := RecordsUpTo(recs, |recs|, env);
    DecodedRun(env, recs, startTime, endTime);
    RecordsFollowPlan(recs, |recs|, env);
    DecodedHeadFacts(startTime);
    EffectsAppend(head, s.events);
    if s.abort.None? {
      EffectsOfLine(Ended(endTime));
      EffectsAppend(head + s.events, [Log(Ended(endTime))]);
    }
  }

  /**
   * A run over a decoded catalog with `results` ends at the first record
   * that fails, with that record's reason, and leaves the log file open
   * then; otherwise it finishes and closes the log file.
   */
  lemma HarvestRunOutcome(env: Env, recs: seq<Record>, startTime: string, endTime: string)
    requires env.logOpens
    ensures var run := HarvestRun(env, Decoded(Some(recs)), startTime, endTime);
      var f := FirstFailure(recs, |recs|);
      && run.status == (if f.Some? then Abort(FailReason(recs[f.value]).value) else Done)
      && run.logOpened
      && (run.logClosed <==> f.None?)
  {
    DecodedRun(env, recs, startTime, endTime);
    RecordsFollowPlan(recs, |recs|, env);
  }

  /**
   * The trace of a run over a decoded catalog with `results`: the start
   * lines first; when no record fails, the end line last; and pacing
   * throughout.
   */
  lemma HarvestRunShape(env: Env, recs: seq<Record>, startTime: string, endTime: string)
    requires env.logOpens
    ensures var run := HarvestRun(env, Decoded(Some(recs)), startTime, endTime);
      && run.events[..3] == Preamble(startTime) + [Log(ReadIn(FileLocation))]
      && (run.status == Done ==> run.events[|run.events| - 1] == Log(Ended(endTime)) && Paced(run.events[..|run.events| - 1]))
      && (run.status.Abort? ==> Paced(run.events))
  {
    var head := DecodedHead(startTime);
    var s := RecordsUpTo(recs, |recs|, env);
    DecodedRun(env, recs, startTime, endTime);
    RecordsFollowPlan(recs, |recs|, env);
    DecodedHeadFacts(startTime);
    PacedAppend(head, s.events);
    var body := head + s.events;
    assert body[..3] == head;
    if s.abort.None? {
      var all := body + [Log(Ended(endTime))];
      assert all[..|all| - 1] == body;
      assert all[..3] == head;
    }
  }

  /**
   * When the log file cannot be opened, the catalog cannot be read or
   * decoded, or it has no `results`, the run ends having made no directory,
   * slept no cooldown and issued no request; the log file is closed only
   * when the catalog could not be opened.
   */
  lemma EarlyExitsTouchNothing(env: Env, input: CatalogInput, startTime: string, endTime: string)
    requires !env.logOpens || !input.Decoded? || input.results.None?
    ensures var run := HarvestRun(env, input, startTime, endTime);
      && Effects(run.events) == []
      && run.status.Abort?
      && run.logOpened == env.logOpens
      && (run.logClosed <==> env.logOpens && input.Unreadable?)
      && (!env.logOpens ==> run.status == Abort(NoLogFile))
      && (env.logOpens && input.Unreadable? ==> run.status == Abort(CatalogUnreadable))
      && (env.logOpens && input.Malformed? ==> run.status == Abort(CatalogMalformed))
      && (env.logOpens && input.Decoded? ==> run.status == Abort(NoResults))
  {
    var run := HarvestRun(env, input, startTime, endTime);
    LogOnlyFacts(run.events);
  }

  /** Plans that agree item by item agree on the whole stretch. */
  lemma {:induction false} PlansAgree<T>(xs: seq<T>, n: nat, p: (T, nat) -> seq<Event>, q: (T, nat) -> seq<Event>,
                                         reason: T -> Option<AbortReason>)
    requires n <= |xs|
    requires forall x: T, i: nat :: p(x, i) == q(x, i)
    ensures PlansUpTo(xs, n, p, reason) == PlansUpTo(xs, n, q, reason)
  {
    if n > 0 {
      PlansAgree(xs, n - 1, p, q, reason);
    }
  }

  /**
   * Failed downloads are swallowed: whatever the network requests return,
   * the run makes the same directories, sleeps the same cooldowns, issues
   * the same requests and ends the same way; only its log lines differ.
   */
  lemma ResponsesDoNotSteer(env: Env, response: nat -> Option<nat>, input: CatalogInput, startTime: string, endTime: string)
    ensures var run := HarvestRun(env, input, startTime, endTime);
      var run' := HarvestRun(env.(response := response), input, startTime, endTime);
      && Effects(run'.events) == Effects(run.events)
      && run'.status == run.status
      && run'.logClosed == run.logClosed
  {
    var env' := env.(response := response);
    if env.logOpens && input.Decoded? && input.results.Some? {
      var recs := input.results.value;
      HarvestRunFollowsPlan(env, recs, startTime, endTime);
      HarvestRunFollowsPlan(env', recs, startTime, endTime);
      HarvestRunOutcome(env, recs, startTime, endTime);
      HarvestRunOutcome(env', recs, startTime, endTime);
      PlansAgree(recs, |recs|, (rec, i) => RecordPlan(rec, i, env), (rec, i) => RecordPlan(rec, i, env'), FailReason);
    } else {
      EarlyExitsTouchNothing(env, input, startTime, endTime);
      EarlyExitsTouchNothing(env', input, startTime, endTime);
    }
  }

  /**
   * Record i's files go to its own directory when that exists or can be
   * created, and to the output root otherwise; the directory is created
   * only when it does not exist yet.
   */
  lemma DirectoryPolicy(name: string, i: nat, env: Env)
    ensures ChosenDir(name, i, env) == RecordDir(name) <==> env.dirExists(i) || env.mkdirOk(i)
    ensures ChosenDir(name, i, env) == FilePath <==> !env.dirExists(i) && !env.mkdirOk(i)
    ensures Effects(DirectoryEvents(name, i, env)) == if env.dirExists(i) then [] else [MakeDirs(RecordDir(name))]
  {
    assert |RecordDir(name)| > |FilePath|;
    DirectoryFacts(name, i, env);
  }

  /**
   * The lines of the directory step, each naming the directory it is about:
   * an existing directory is reported found; a created one is reported
   * created; a failed creation is reported, then the warning names the
   * directory the record's files go to instead.
   */
  lemma DirectoryLines(name: string, i: nat, env: Env)
    ensures var e := DirectoryEvents(name, i, env);
      var d := ChosenDir(name, i, env);
      && (env.dirExists(i) ==> e == [Log(FoundExistingDir(d))])
      && (!env.dirExists(i) && env.mkdirOk(i) ==> e == [MakeDirs(d), Log(CreatedDir(d))])
      && (!env.dirExists(i) && !env.mkdirOk(i) ==>
            e == [MakeDirs(RecordDir(name)), Log(CantCreateDir(RecordDir(name))), Log(WritingToParent(d))] && d == FilePath)
  {
  }

  /** Every request of a stretch satisfies `ok` when every request of every item plan does. */
  lemma {:induction false} PlansRequestsOk<T>(xs: seq<T>, n: nat, plan: (T, nat) -> seq<Event>,
                                              reason: T -> Option<AbortReason>, ok: Req -> bool)
    requires n <= |xs|
    requires forall x: T, i: nat :: forall q :: q in Requests(plan(x, i)) ==> ok(q)
    ensures forall q :: q in Requests(PlansUpTo(xs, n, plan, reason)) ==> ok(q)
  {
    if n > 0 {
      PlansRequestsOk(xs, n - 1, plan, reason, ok);
      if FirstFailing(xs, n - 1, reason).None? {
        RequestsAppend(PlansUpTo(xs, n - 1, plan, reason), plan(xs[n - 1], n - 1));
      }
    }
  }

  /** A resource's plan requests, at most once, an ordinary download into `dir`. */
  lemma ResourceItemRequests(r: ResourceRef, dir: string, name: string)
    ensures forall q :: q in Requests(ResourceItemPlan(r, dir, name)) ==> q.kind == Resource && StartsWith(q.path, dir)
  {
    if Truthy(r.url) {
      RequestsOfPair(Req(Resource, r.url.value, ResourcePath(dir, name, r)));
    } else {
      assert Requests([]) == [];
    }
  }

  /** The resources of a record request only ordinary downloads, each into `dir`. */
  lemma ResourcePlanRequests(rs: seq<ResourceRef>, dir: string, name: string)
    ensures forall q :: q in Requests(ResourcePlan(rs, dir, name)) ==> q.kind == Resource && StartsWith(q.path, dir)
  {
    var plan := (r, i) => ResourceItemPlan(r, dir, name);
    forall r: ResourceRef, i: nat
      ensures forall q :: q in Requests(plan(r, i)) ==> q.kind == Resource && StartsWith(q.path, dir)
    {
      ResourceItemRequests(r, dir, name);
    }
    var ok := (q: Req) => q.kind == Resource && StartsWith(q.path, dir);
    PlansRequestsOk(rs, |rs|, plan, r => None, ok);
  }

  /** A record's harvest object is fetched when its first harvest entry has a value. */
  predicate HarvestRequested(extras: seq<Extra>)
  {
    FirstHarvest(extras).Some? && FirstHarvest(extras).value.value.Some?
  }

  /** The harvest plan requests the harvest object into `dir`, once, exactly when it is fetched at all. */
  lemma HarvestPlanRequests(extras: seq<Extra>, dir: string)
    ensures var qs := Requests(HarvestPlan(extras, dir));
      && |qs| == (if HarvestRequested(extras) then 1 else 0)
      && (forall q :: q in qs ==> q.kind == HarvestObject && StartsWith(q.path, dir))
  {
    if HarvestRequested(extras) {
      var q := Req(HarvestObject, HarvestUrl(FirstHarvest(extras).value.value.value), HarvestPath(dir));
      assert HarvestPlan(extras, dir) == [Request(q)];
      assert [Request(q)][..0] == [];
      assert HarvestPath(dir)[..|dir|] == dir;
    } else {
      assert HarvestPlan(extras, dir) == [];
    }
  }

  /**
   * The requests of a record once its directory `dir` is chosen: the
   * harvest object first, if it is fetched at all, then only ordinary
   * downloads; every file is written inside `dir`.
   */
  lemma BodyRequests(rec: Record, dir: string)
    ensures var qs := Requests(BodyPlan(rec, dir));
      && (forall j :: 0 <= j < |qs| ==> StartsWith(qs[j].path, dir))
      && (forall j :: 0 < j < |qs| ==> qs[j].kind == Resource)
      && (|qs| > 0 && qs[0].kind == HarvestObject <==> rec.extras.Some? && HarvestRequested(rec.extras.value))
  {
    match rec.extras
    case None =>
      assert Requests([]) == [];
    case Some(extras) =>
      if HarvestValueMissing(extras) {
        assert Requests([]) == [];
      } else {
        var h := HarvestPlan(extras, dir);
        var r := ResourcesStagePlan(rec, dir);
        RequestsAppend(h, r);
        HarvestPlanRequests(extras, dir);
        if rec.resources.Some? {
          ResourcePlanRequests(rec.resources.value, dir, rec.name);
        } else {
          assert Requests([]) == [];
        }
        var hq := Requests(h);
        var rq := Requests(r);
        assert forall j :: 0 <= j < |rq| ==> rq[j] in rq;
        assert forall j :: 0 <= j < |hq| ==> hq[j] in hq;
        assert Requests(BodyPlan(rec, dir)) == hq + rq;
      }
  }

  /**
   * The requests of record i: the harvest object first, if it is fetched at
   * all, then only ordinary downloads; every file is written inside the
   * directory chosen for the record.
   */
  lemma RecordRequests(rec: Record, i: nat, env: Env)
    ensures var qs := Requests(RecordPlan(rec, i, env));
      && (forall j :: 0 <= j < |qs| ==> StartsWith(qs[j].path, ChosenDir(rec.name, i, env)))
      && (forall j :: 0 < j < |qs| ==> qs[j].kind == Resource)
      && (|qs| > 0 && qs[0].kind == HarvestObject <==> rec.extras.Some? && HarvestRequested(rec.extras.value))
  {
    var dir := ChosenDir(rec.name, i, env);
    DirectoryFacts(rec.name, i, env);
    RequestsAppend(DirPlan(rec.name, i, env), BodyPlan(rec, dir));
    BodyRequests(rec, dir);
  }

  /** A success line gives back, as written, exactly the size that was downloaded. */
  lemma SuccessLineRecordsSize(url: string, path: string, size: nat)
    ensures var text := Render(ResourceSucceeded(url, path, size));
      var prefix := ResourceStatus(url, path) + "success! File size ";
      && StartsWith(text, prefix)
      && |text| >= |prefix| + 6
      && text[|text| - 6..] == " bytes"
      && (forall c :: c in text[|prefix|..|text| - 6] ==> IsDigit(c))
      && ParseDecimal(text[|prefix|..|text| - 6]) == size
  {
    var prefix := ResourceStatus(url, path) + "success! File size ";
    var digits := NatToString(size);
    var text := Render(ResourceSucceeded(url, path, size));
    assert text == prefix + digits + " bytes";
    assert text[..|prefix|] == prefix;
    assert text[|text| - 6..] == " bytes";
    assert text[|prefix|..|text| - 6] == digits;
    ParseNatToString(size);
  }

  /**
   * The two outcome lines of one download share their status prefix and part
   * right after it: `success!` against `failed.`, for a resource and for the
   * harvest object alike.
   */
  lemma OutcomeLinesDiffer(url: string, path: string, size: nat)
    ensures var p := ResourceStatus(url, path);
      var ok := Render(ResourceSucceeded(url, path, size));
      var ko := Render(ResourceFailed(url, path));
      && StartsWith(ok, p) && StartsWith(ko, p) && |ok| > |p| && |ko| > |p|
      && ok[|p|] == 's' && ko[|p|] == 'f'
    ensures var ok := Render(HarvestSucceeded(size));
      var ko := Render(HarvestFailed);
      && StartsWith(ok, HarvestStatus) && StartsWith(ko, HarvestStatus)
      && |ok| > |HarvestStatus| && |ko| > |HarvestStatus|
      && ok[|HarvestStatus|] == 's' && ko[|HarvestStatus|] == 'f'
  {
    var p := ResourceStatus(url, path);
    var digits := NatToString(size);
    PrefixThenChar(p, "success! File size " + digits + " bytes");
    PrefixThenChar(p, FailedText);
    PrefixThenChar(HarvestStatus, "success! file size " + digits + " bytes");
    PrefixThenChar(HarvestStatus, FailedText);
  }

  lemma PrefixThenChar(p: string, rest: string)
    requires rest != []
    ensures StartsWith(p + rest, p) && |p + rest| > |p| && (p + rest)[|p|] == rest[0]
  {
    assert (p + rest)[..|p|] == p;
  }

  /** A stretch of one item is that item's step. */
  lemma StepsOfOne<T>(x: T, k: nat, step: (T, nat, nat) -> Step)
    ensures StepsUpTo([x], 1, k, step) == step(x, 0, k)
  {
    assert [] + step(x, 0, k).events == step(x, 0, k).events;
  }

  /** The environment of the example run: no directory exists yet, every creation succeeds, every download is 7 bytes. */
  function ExampleEnv(): Env
  {
    Env(true, i => false, i => true, k => Some(7))
  }

  /** The example record: `r1`, no extras entries, one resource of format `bin` without a description. */
  function ExampleRecord(): Record
  {
    Record("Survey", "r1", Some([]), Some([ResourceRef(Some("https://x/y.bin"), Some("bin"), None)]))
  }

  /** The example record on its own: title, directory creation, one cooldown and one download. */
  lemma ExampleRecordStep()
    ensures RecordStep(ExampleRecord(), 0, ExampleEnv(), 0) ==
      Step([Log(FoundTitle("Survey")), MakeDirs("data/imls/r1/"), Log(CreatedDir("data/imls/r1/")),
            Sleep(CooldownTime), Request(Req(Resource, "https://x/y.bin", "data/imls/r1/r1.bin")),
            Log(ResourceSucceeded("https://x/y.bin", "data/imls/r1/r1.bin", 7))], 1, None)
  {
    var env := ExampleEnv();
    var rec := ExampleRecord();
    var r := rec.resources.value[0];
    var dir := "data/imls/r1/";
    var path := "data/imls/r1/r1.bin";
    assert "bin"[1..] == "in" && "in"[1..] == "n" && "n"[1..] == "";
    assert Lower("bin") == "bin";
    assert ResourcePath(dir, "r1", r) == path;
    var t := ResourceStep(r, dir, "r1", env, 0);
    assert t == Step([Sleep(CooldownTime), Request(Req(Resource, "https://x/y.bin", path)),
                      Log(ResourceSucceeded("https://x/y.bin", path, 7))], 1, None);
    var rstep := (r', i, k') => ResourceStep(r', dir, "r1", env, k');
    StepsOfOne(r, 0, rstep);
    assert HarvestStage([], dir, env, 0) == Step([], 0, None);
    assert RecordBody(rec, dir, env, 0) == t;
    assert ChosenDir("r1", 0, env) == dir;
  }

  /**
   * A catalog holding only the example record: the run creates
   * `data/imls/r1/`, sleeps once, saves `data/imls/r1/r1.bin`, logs its size
   * and ends normally.
   */
  lemma ExampleSingleRecordRun(startTime: string, endTime: string)
    ensures var run := HarvestRun(ExampleEnv(), Decoded(Some([ExampleRecord()])), startTime, endTime);
      && run.status == Done
      && run.logClosed
      && run.events == DecodedHead(startTime) +
         [Log(FoundTitle("Survey")), MakeDirs("data/imls/r1/"), Log(CreatedDir("data/imls/r1/")),
          Sleep(CooldownTime), Request(Req(Resource, "https://x/y.bin", "data/imls/r1/r1.bin")),
          Log(ResourceSucceeded("https://x/y.bin", "data/imls/r1/r1.bin", 7)), Log(Ended(endTime))]
  {
    var env := ExampleEnv();
    var step := (rec', i, k) => RecordStep(rec', i, env, k);
    StepsOfOne(ExampleRecord(), 0, step);
    ExampleRecordStep();
    DecodedRun(env, [ExampleRecord()], startTime, endTime);
  }
}

=== FILE: harvest.dfy ===
/**
 * The run of `fetch()` as a function of its environment: the catalog that was
 * read, whether the log file could be opened, whether each record's directory
 * exists and can be created, and what each network request returns. The
 * result is the trace of events and how the run ended.
 */
module Harvest {
  import opened Wrappers
  import opened Catalog
  import opened Layout
  import opened RunLog

  /**
   * The environment, as oracles: `dirExists(i)` and `mkdirOk(i)` answer
   * `os.path.exists` and `os.makedirs` for the i-th record's directory;
   * `response(k)` is the size of the file written by the k-th network
   * request of the run, or `None` when the request or the write failed.
   */
  datatype Env = Env(logOpens: bool, dirExists: nat -> bool, mkdirOk: nat -> bool, response: nat -> Option<nat>)

  datatype AbortReason = NoLogFile | CatalogUnreadable | CatalogMalformed | NoResults | NoExtras | NoHarvestValue | NoResources

  datatype Status = Done | Abort(reason: AbortReason)

  /** The reasons for which a record, rather than the setup, ends the run. */
  predicate RecordReason(a: AbortReason)
  {
    a == NoExtras || a == NoHarvestValue || a == NoResources
  }

  /** A finished run: its trace, how it ended, whether the log file was opened and whether it was closed. */
  datatype Run = Run(events: seq<Event>, status: Status, logOpened: bool, logClosed: bool)

  /** A stretch of a run: its events, the index of the next network request, and the abort it ends in, if any. */
  datatype Step = Step(events: seq<Event>, next: nat, abort: Option<AbortReason>)

  /** One call of `getResource`: its events, its return value and the next request index. */
  datatype Fetched = Fetched(events: seq<Event>, resp: Option<nat>, next: nat)

  /**
   * `getResource(url, path)`: an empty url or path returns `None` without a
   * request; otherwise the k-th request is issued and its outcome returned.
   */
  function GetResource(kind: FetchKind, url: string, path: string, env: Env, k: nat): (f: Fetched)
    ensures f.events == [] <==> url == "" || path == ""
    ensures f.events == [] ==> f.resp.None? && f.next == k
    ensures f.events != [] ==> f.events == [Request(Req(kind, url, path))] && f.resp == env.response(k) && f.next == k + 1
  {
    if url == "" || path == "" then Fetched([], None, k)
    else Fetched([Request(Req(kind, url, path))], env.response(k), k + 1)
  }

  /** `if resp:` -- a download counts as a success only when its size is truthy. */
  predicate Succeeded(resp: Option<nat>)
  {
    resp.Some? && resp.value > 0
  }

  /** The directory record i's files go to: its own, or the root when it is missing and cannot be created. */
  function ChosenDir(name: string, i: nat, env: Env): (d: string)
    ensures d == RecordDir(name) || d == FilePath
    ensures StartsWith(d, FilePath)
  {
    if env.dirExists(i) || env.mkdirOk(i) then RecordDir(name) else FilePath
  }

  /**
   * The directory step: at most one creation attempt, made first and only
   * when the directory is missing, and log lines after it; a failed creation
   * ends with the warning naming the directory used instead.
   */
  function DirectoryEvents(name: string, i: nat, env: Env): (e: seq<Event>)
    ensures 1 <= |e| <= 3
    ensures e[0] == MakeDirs(RecordDir(name)) <==> !env.dirExists(i)
    ensures forall j :: 0 < j < |e| ==> e[j].Log?
    ensures env.dirExists(i) ==> |e| == 1
    ensures !env.dirExists(i) ==> |e| >= 2 && (e[1] == Log(CreatedDir(RecordDir(name))) <==> env.mkdirOk(i))
    ensures !env.dirExists(i) && !env.mkdirOk(i) ==> e[|e| - 1] == Log(WritingToParent(ChosenDir(name, i, env)))
  {
    var d := RecordDir(name);
    if env.dirExists(i) then [Log(FoundExistingDir(d))]
    else if env.mkdirOk(i) then [MakeDirs(d), Log(CreatedDir(d))]
    else [MakeDirs(d), Log(CantCreateDir(d)), Log(WritingToParent(FilePath))]
  }

  predicate IsHarvestEntry(e: Extra)
  {
    e.key == Some(HarvestKey)
  }

  /** The first `extras` entry whose key is `harvest_object_id`. */
  function FirstHarvest(extras: seq<Extra>): (f: Option<Extra>)
    ensures f.Some? ==> f.value in extras && IsHarvestEntry(f.value)
  {
    if extras == [] then None
    else
      var f := FirstHarvest(extras[..|extras| - 1]);
      if f.Some? then f
      else if IsHarvestEntry(extras[|extras| - 1]) then Some(extras[|extras| - 1])
      else None
  }

  /** Fetching the harvest object with id `v` into `dir`, and logging the outcome. */
  function HarvestFetch(v: string, dir: string, env: Env, k: nat): (s: Step)
    ensures s.abort.None? && s.next == k + 1 && |s.events| == 2
    ensures s.events[0] == Request(Req(HarvestObject, HarvestUrl(v), HarvestPath(dir))) && s.events[1].Log?
  {
    var f := GetResource(HarvestObject, HarvestUrl(v), HarvestPath(dir), env, k);
    Step(f.events + [Log(if Succeeded(f.resp) then HarvestSucceeded(f.resp.value) else HarvestFailed)], f.next, None)
  }

  /**
   * The scan of `extras`: the first harvest entry is fetched; a harvest
   * entry without a `value` raises `KeyError`, which ends the run.
   */
  function HarvestStage(extras: seq<Extra>, dir: string, env: Env, k: nat): (h: Step)
    ensures h.abort.Some? ==> h.abort == Some(NoHarvestValue) && h.events == [] && h.next == k
    ensures h.abort.None? ==> (h.next == k + 1 <==> FirstHarvest(extras).Some?) && (h.next == k <==> FirstHarvest(extras).None?)
    ensures h.abort.None? && h.next == k ==> h.events == []
  {
    match FirstHarvest(extras)
    case None => Step([], k, None)
    case Some(e) =>
      if e.value.None? then Step([], k, Some(NoHarvestValue)) else HarvestFetch(e.value.value, dir, env, k)
  }

  /**
   * The first n items of a stretch of per-item steps that starts with
   * request index k, where `step(x, i, k)` is item i starting with request
   * index k; nothing happens after a step that ends the run.
   */
  function StepsUpTo<T>(xs: seq<T>, n: nat, k: nat, step: (T, nat, nat) -> Step): Step
    requires n <= |xs|
  {
    if n == 0 then Step([], k, None)
    else
      var s := StepsUpTo(xs, n - 1, k, step);
      if s.abort.Some? then s
      else
        var t := step(xs[n - 1], n - 1, s.next);
        Step(s.events + t.events, t.next, t.abort)
  }

  /** One resource: skipped with a log line when its url is falsy, else a cooldown, a fetch and a log line. */
  function ResourceStep(r: ResourceRef, dir: string, name: string, env: Env, k: nat): (t: Step)
    ensures t.abort.None?
    ensures t.next == if Truthy(r.url) then k + 1 else k
    ensures !Truthy(r.url) ==> t.events == [Log(NoUrl)]
    ensures Truthy(r.url) ==> |t.events| == 3 && t.events[0] == Sleep(CooldownTime) && t.events[2].Log?
  {
    if !Truthy(r.url) then Step([Log(NoUrl)], k, None)
    else
      var url := r.url.value;
      var path := ResourcePath(dir, name, r);
      var f := GetResource(Resource, url, path, env, k);
      var line := if Succeeded(f.resp) then ResourceSucceeded(url, path, f.resp.value) else ResourceFailed(url, path);
      Step([Sleep(CooldownTime)] + f.events + [Log(line)], f.next, None)
  }

  /** The first n resources, in list order, starting with request index k. */
  function ResourcesUpTo(rs: seq<ResourceRef>, n: nat, dir: string, name: string, env: Env, k: nat): Step
    requires n <= |rs|
  {
    StepsUpTo(rs, n, k, (r, i, k') => ResourceStep(r, dir, name, env, k'))
  }

  /** No resource ends the run: failures are swallowed per item. */
  lemma {:induction false} ResourcesNeverEnd(rs: seq<ResourceRef>, n: nat, dir: string, name: string, env: Env, k: nat)
    requires n <= |rs|
    ensures ResourcesUpTo(rs, n, dir, name, env, k).abort.None?
    ensures ResourcesUpTo(rs, n, dir, name, env, k).next >= k
  {
    if n > 0 {
      ResourcesNeverEnd(rs, n - 1, dir, name, env, k);
    }
  }

  /** What the check of the `resources` section decides. */
  datatype Guard = Proceed | LoggedExit | Crash

  /** The intended check of the `resources` section: log and end the run when it is missing. */
  function ResourcesGuard(rec: Record): (g: Guard)
    ensures g != Crash
    ensures g == LoggedExit <==> rec.resources.None?
  {
    if rec.resources.None? then LoggedExit else Proceed
  }

  /**
   * The check of the `resources` section as the script writes it: the test
   * that the key is absent is joined by `and` to a lookup of that same key.
   * When the key is present the first operand is false and the lookup is
   * skipped; when it is absent the lookup raises `KeyError` before the
   * message is logged. It never takes the logged exit, and crashes exactly
   * where the intended check would take it.
   */
  function ResourcesGuardAsWritten(rec: Record): (g: Guard)
    ensures g != LoggedExit
    ensures g == Crash <==> ResourcesGuard(rec) == LoggedExit
    ensures g != Crash ==> g == ResourcesGuard(rec)
  {
    if rec.resources.Some? then Proceed else Crash
  }

  /**
   * The check of the `resources` section, as written, then every resource in
   * list order. A missing section ends the run through the uncaught
   * `KeyError`, with no line logged.
   */
  function ResourcesStage(rec: Record, dir: string, env: Env, k: nat): (t: Step)
    ensures t.abort.Some? <==> rec.resources.None?
    ensures t.abort.Some? ==> t == Step([], k, Some(NoResources))
    ensures t.next >= k
  {
    if ResourcesGuardAsWritten(rec) == Crash then Step([], k, Some(NoResources))
    else
      var rs := rec.resources.value;
      ResourcesNeverEnd(rs, |rs|, dir, rec.name, env, k);
      ResourcesUpTo(rs, |rs|, dir, rec.name, env, k)
  }

  /** A record once its directory `dir` is settled: the `extras` check, the harvest scan, the resources. */
  function RecordBody(rec: Record, dir: string, env: Env, k: nat): (b: Step)
    ensures b.next >= k
    ensures rec.extras.None? ==> b == Step([Log(MissingExtrasNote)], k, Some(NoExtras))
    ensures b.abort.None? ==> rec.extras.Some? && rec.resources.Some?
    ensures b.abort.Some? ==> RecordReason(b.abort.value)
  {
    match rec.extras
    case None => Step([Log(MissingExtrasNote)], k, Some(NoExtras))
    case Some(extras) =>
      var h := HarvestStage(extras, dir, env, k);
      if h.abort.Some? then h
      else
        var r := ResourcesStage(rec, dir, env, h.next);
        Step(h.events + r.events, r.next, r.abort)
  }

  /** Record number i, starting with request index k. */
  function RecordStep(rec: Record, i: nat, env: Env, k: nat): (t: Step)
    ensures |t.events| >= 2 && t.events[0] == Log(FoundTitle(rec.title))
    ensures t.next >= k
    ensures t.abort.None? ==> rec.extras.Some? && rec.resources.Some?
    ensures t.abort.Some? ==> RecordReason(t.abort.value)
  {
    var b := RecordBody(rec, ChosenDir(rec.name, i, env), env, k);
    Step([Log(FoundTitle(rec.title))] + DirectoryEvents(rec.name, i, env) + b.events, b.next, b.abort)
  }

  /** The first n records, in catalog order; nothing happens after a record that ends the run. */
  function RecordsUpTo(recs: seq<Record>, n: nat, env: Env): Step
    requires n <= |recs|
  {
    StepsUpTo(recs, n, 0, (rec, i, k) => RecordStep(rec, i, env, k))
  }

  /** The records loop only ends the run for a record's reason. */
  lemma RecordsEndForRecordReasons(recs: seq<Record>, n: nat, env: Env)
    requires n <= |recs|
    ensures RecordsUpTo(recs, n, env).abort.Some? ==> RecordReason(RecordsUpTo(recs, n, env).abort.value)
  {
    var step := (rec, i, k) => RecordStep(rec, i, env, k);
    forall rec: Record, i: nat, k: nat | step(rec, i, k).abort.Some?
      ensures RecordReason(step(rec, i, k).abort.value)
    {
    }
    StepsEndFor(recs, n, 0, step, a => RecordReason(a));
  }

  /** A stretch of steps only ends for a reason some step ends for. */
  lemma {:induction false} StepsEndFor<T>(xs: seq<T>, n: nat, k: nat, step: (T, nat, nat) -> Step,
                                          reason: AbortReason -> bool)
    requires n <= |xs|
    requires forall x: T, i: nat, k': nat :: step(x, i, k').abort.Some? ==> reason(step(x, i, k').abort.value)
    ensures StepsUpTo(xs, n, k, step).abort.Some? ==> reason(StepsUpTo(xs, n, k, step).abort.value)
  {
    if n > 0 {
      StepsEndFor(xs, n - 1, k, step, reason);
    }
  }

  /** The lines the run prints before the catalog is read. */
  function Preamble(startTime: string): seq<Event>
  {
    [Log(Started(startTime)), Log(CooldownNote(CooldownTime))]
  }

  /** A whole run of `fetch()`; the two timestamps are inputs. */
  function HarvestRun(env: Env, input: CatalogInput, startTime: string, endTime: string): (r: Run)
    ensures r.logOpened == env.logOpens
    ensures r.status == Abort(NoLogFile) <==> !env.logOpens
    ensures r.logClosed ==> r.status == Done || r.status == Abort(CatalogUnreadable)
    ensures r.status == Done ==> r.logClosed && input.Decoded? && input.results.Some?
    ensures r.events != []
  {
    if !env.logOpens then
      Run([Log(LogUnwritable(FilePath + LogFileName)), Log(ExitingUnlogged)], Abort(NoLogFile), false, false)
    else
      match input
      case Unreadable =>
        Run(Preamble(startTime) + [Log(CantOpen(FileLocation)), Log(Exiting)], Abort(CatalogUnreadable), true, true)
      case Malformed =>
        Run(Preamble(startTime), Abort(CatalogMalformed), true, false)
      case Decoded(results) =>
        var head := Preamble(startTime) + [Log(ReadIn(FileLocation))];
        match results
        case None => Run(head, Abort(NoResults), true, false)
        case Some(recs) =>
          var s := RecordsUpTo(recs, |recs|, env);
          RecordsEndForRecordReasons(recs, |recs|, env);
          if s.abort.Some? then Run(head + s.events, Abort(s.abort.value), true, false)
          else Run(head + s.events + [Log(Ended(endTime))], Done, true, true)
  }
}

=== FILE: layout.dfy ===
/**
 * The fixed locations of the harvest script and the pure derivation of the
 * directory and file each download is written to.
 */
module Layout {
  import opened Wrappers
  import opened Catalog

  const FileParentPath := "data/"
  const FileSubPath := "imls/"
  /** The output root, `data/imls/`; it ends in a slash. */
  const FilePath := FileParentPath + FileSubPath
  const FileName := "imls-gov.json"
  const FileLocation := FilePath + FileName
  const LogFileName := "log.txt"
  const HarvestUrlPrefix := "https://catalog.data.gov/harvest/object/"
  const HarvestKey := "harvest_object_id"
  /** Seconds slept before each ordinary resource fetch. */
  const CooldownTime: nat := 1

  predicate StartsWith(s: string, prefix: string)
  {
    |prefix| <= |s| && s[..|prefix|] == prefix
  }

  /** The directory of a record: the root, the record's name, a slash. */
  function RecordDir(name: string): (d: string)
    ensures StartsWith(d, FilePath) && |d| == |FilePath| + |name| + 1
    ensures d[|FilePath|..|d| - 1] == name && d[|d| - 1] == '/'
  {
    FilePath + name + "/"
  }

  predicate IsUpper(c: char)
  {
    'A' <= c <= 'Z'
  }

  function LowerChar(c: char): char
  {
    if IsUpper(c) then (c as int + 32) as char else c
  }

  /** `str.lower()` on ASCII letters. */
  function Lower(s: string): (r: string)
    ensures |r| == |s|
    ensures forall i :: 0 <= i < |r| ==> !IsUpper(r[i])
    ensures forall i :: 0 <= i < |s| && !IsUpper(s[i]) ==> r[i] == s[i]
    ensures forall i :: 0 <= i < |s| && IsUpper(s[i]) ==> r[i] as int == s[i] as int + 32
  {
    if s == [] then [] else [LowerChar(s[0])] + Lower(s[1..])
  }

  /** The file extension: `"." + lower(format)` when the format is truthy, `.txt` otherwise. */
  function Extension(format: Option<string>): (e: string)
    ensures |e| >= 2 && e[0] == '.'
    ensures forall j :: 0 <= j < |e| ==> !IsUpper(e[j])
  {
    if Truthy(format) then "." + Lower(format.value) else ".txt"
  }

  /** The destination of a resource download inside directory `dir`. */
  function ResourcePath(dir: string, name: string, r: ResourceRef): (p: string)
    ensures |p| > |dir| && StartsWith(p, dir)
  {
    if Truthy(r.description) then dir + r.description.value else dir + name + Extension(r.format)
  }

  function HarvestUrl(id: string): (u: string)
    ensures StartsWith(u, HarvestUrlPrefix) && u[|HarvestUrlPrefix|..] == id
  {
    HarvestUrlPrefix + id
  }

  /** The harvest object's destination; `dir` already ends in a slash, so this holds `//`. */
  function HarvestPath(dir: string): (p: string)
    ensures StartsWith(p, dir) && p[|dir|..] == "/data.json"
  {
    dir + "/data.json"
  }

  /** Lower-casing twice is lower-casing once. */
  lemma LowerIdempotent(s: string)
    ensures Lower(Lower(s)) == Lower(s)
  {
  }

  /**
   * The extension of a format: a dot and the lower-cased format when the
   * format is non-empty, `.txt` when it is empty or missing; so letter case
   * in the format never changes it.
   */
  lemma ExtensionIgnoresCase(f: string)
    ensures Extension(Some(f)) == Extension(Some(Lower(f)))
    ensures f != "" ==> Extension(Some(f)) == "." + Lower(f)
    ensures f == "" ==> Extension(Some(f)) == ".txt"
    ensures Extension(None) == ".txt"
  {
    LowerIdempotent(f);
  }

  /**
   * Which name a resource is saved under: its description whenever that is
   * truthy, whatever the format; otherwise the record name with the
   * lower-cased format, or `.txt` when the format is missing or empty.
   */
  lemma DestinationFile(dir: string, name: string, r: ResourceRef, other: Option<string>)
    ensures Truthy(r.description) ==>
      ResourcePath(dir, name, r) == dir + r.description.value &&
      ResourcePath(dir, name, r.(format := other)) == ResourcePath(dir, name, r)
    ensures !Truthy(r.description) && Truthy(r.format) ==>
      ResourcePath(dir, name, r) == dir + name + "." + Lower(r.format.value)
    ensures !Truthy(r.description) && !Truthy(r.format) ==>
      ResourcePath(dir, name, r) == dir + name + ".txt"
    ensures ResourcePath(dir, name, r)[..|dir|] == dir
  {
  }

  /** A resource with no description and format `CSV` is saved as `<name>.csv`. */
  lemma ExampleFormatLowered()
    ensures ResourcePath(RecordDir("r1"), "r1", ResourceRef(Some("https://x/y.bin"), Some("CSV"), None)) == "data/imls/r1/r1.csv"
  {
    assert "CSV"[1..] == "SV" && "SV"[1..] == "V" && "V"[1..] == "";
    assert Lower("CSV") == "csv";
  }

  /** The harvest object of record `r1` goes to `data/imls/r1//data.json`. */
  lemma ExampleHarvestPath()
    ensures HarvestPath(RecordDir("r1")) == "data/imls/r1//data.json"
  {
  }
}

=== FILE: outcomes.dfy ===
/**
 * What the log says about each download: the line right after a request
 * reports the answer the oracle gave to that request, counted from the start
 * of the run. A `None` answer and an empty file both give the `failed` line.
 */
module Outcomes {
  import opened Wrappers
  import opened Catalog
  import opened Layout
  import opened RunLog
  import opened Harvest
  import opened Plan

  /**
   * Every request of trace `t` is directly followed by a line reporting the
   * answer to it, where the trace's first request is the run's k-th: walking
   * the trace from the front, the j-th request met gets answer k + j.
   */
  predicate Reported(t: seq<Event>, k: nat, response: nat -> Option<nat>)
    decreases |t|
  {
    if t == [] then true
    else if t[0].Request? then
      |t| >= 2 && t[1].Log? && Reports(t[1].line, response(k)) && Reported(t[1..], k + 1, response)
    else Reported(t[1..], k, response)
  }

  /**
   * A reporting line is a success line exactly when the answer was a
   * non-empty file, and then it carries that file's size.
   */
  lemma ReportsSuccessIff(line: Line, resp: Option<nat>)
    requires Reports(line, resp)
    ensures (line.HarvestSucceeded? || line.ResourceSucceeded?) <==> resp.Some? && resp.value > 0
    ensures (line.HarvestSucceeded? || line.ResourceSucceeded?) ==> resp == Some(line.size)
    ensures (line.HarvestFailed? || line.ResourceFailed?) <==> resp.None? || resp.value == 0
  {
  }

  /** The requests of a trace, taken from its front. */
  lemma RequestsCons(t: seq<Event>)
    requires t != []
    ensures Requests(t) == (if t[0].Request? then [t[0].req] else []) + Requests(t[1..])
  {
    assert t == [t[0]] + t[1..];
    RequestsAppend([t[0]], t[1..]);
    assert [t[0]][..0] == [];
  }

  /** The requests of a trace are the requests of its effects. */
  lemma {:induction false} RequestsOfEffects(t: seq<Event>)
    ensures Requests(Effects(t)) == Requests(t)
  {
    if t != [] {
      var init := t[..|t| - 1];
      var last := t[|t| - 1];
      RequestsOfEffects(init);
      var tail := if last.Log? then [] else [last];
      RequestsAppend(Effects(init), tail);
      if tail != [] {
        assert tail[..0] == [];
      }
    }
  }

  /** A trace without requests reports nothing and has no requests. */
  lemma {:induction false} NoRequests(t: seq<Event>, k: nat, response: nat -> Option<nat>)
    requires forall i :: 0 <= i < |t| ==> !t[i].Request?
    ensures Requests(t) == [] && Reported(t, k, response)
  {
    if t != [] {
      NoRequests(t[1..], k, response);
      RequestsCons(t);
    }
  }

  /** Reporting is kept by concatenation, the second part's requests numbered after the first part's. */
  lemma {:induction false} ReportedAppend(a: seq<Event>, b: seq<Event>, k: nat, response: nat -> Option<nat>)
    requires Reported(a, k, response) && Reported(b, k + |Requests(a)|, response)
    ensures Reported(a + b, k, response)
  {
    if a == [] {
      assert a + b == b;
    } else {
      RequestsCons(a);
      assert (a + b)[1..] == a[1..] + b;
      if a[0].Request? {
        ReportedAppend(a[1..], b, k + 1, response);
      } else {
        ReportedAppend(a[1..], b, k, response);
      }
    }
  }

  /**
   * One resource: when it is fetched, the line after its request is a
   * success line with size n exactly when the oracle answered a non-empty
   * file of n bytes, and the `failed` line otherwise.
   */
  lemma ResourceStepReported(r: ResourceRef, dir: string, name: string, env: Env, k: nat)
    ensures var t := ResourceStep(r, dir, name, env, k);
      Reported(t.events, k, env.response) && t.next == k + |Requests(t.events)|
  {
    var t := ResourceStep(r, dir, name, env, k).events;
    ResourceStepFacts(r, dir, name, env, k);
    RequestsOfEffects(t);
    if Truthy(r.url) {
      assert t[1..][1..][1..] == [];
      assert Reported(t[1..][1..], k + 1, env.response);
    }
  }

  /** The harvest fetch: the line after its request reports the oracle's answer in the same way. */
  lemma HarvestStageReported(extras: seq<Extra>, dir: string, env: Env, k: nat)
    ensures var h := HarvestStage(extras, dir, env, k);
      Reported(h.events, k, env.response) && h.next == k + |Requests(h.events)|
  {
    var h := HarvestStage(extras, dir, env, k);
    if h.events != [] {
      var t := h.events;
      assert t[1..][1..] == [];
      RequestsCons(t);
      RequestsCons(t[1..]);
    }
  }

  /** A stretch of reporting steps reports, and counts its requests. */
  lemma {:induction false} StepsReported<T>(xs: seq<T>, n: nat, k: nat, step: (T, nat, nat) -> Step,
                                            response: nat -> Option<nat>)
    requires n <= |xs|
    requires forall x: T, i: nat, k': nat ::
      Reported(step(x, i, k').events, k', response) && step(x, i, k').next == k' + |Requests(step(x, i, k').events)|
    ensures var s := StepsUpTo(xs, n, k, step);
      Reported(s.events, k, response) && s.next == k + |Requests(s.events)|
  {
    if n == 0 {
      NoRequests([], k, response);
    } else {
      StepsReported(xs, n - 1, k, step, response);
      var s := StepsUpTo(xs, n - 1, k, step);
      if s.abort.None? {
        var t := step(xs[n - 1], n - 1, s.next);
        ReportedJoin(s.events, t.events, k, s.next, t.next, response);
      }
    }
  }

  /** Two reporting stretches, the second starting where the first stopped counting, join into one. */
  lemma ReportedJoin(a: seq<Event>, b: seq<Event>, k: nat, mid: nat, next: nat, response: nat -> Option<nat>)
    requires Reported(a, k, response) && mid == k + |Requests(a)|
    requires Reported(b, mid, response) && next == mid + |Requests(b)|
    ensures Reported(a + b, k, response) && next == k + |Requests(a + b)|
  {
    ReportedAppend(a, b, k, response);
    RequestsAppend(a, b);
  }

  /** The resources loop reports every download's answer. */
  lemma ResourcesReported(rs: seq<ResourceRef>, dir: string, name: string, env: Env, k: nat)
    ensures var s := ResourcesUpTo(rs, |rs|, dir, name, env, k);
      Reported(s.events, k, env.response) && s.next == k + |Requests(s.events)|
  {
    var step := (r, i, k') => ResourceStep(r, dir, name, env, k');
    forall r: ResourceRef, i: nat, k': nat
      ensures Reported(step(r, i, k').events, k', env.response) && step(r, i, k').next == k' + |Requests(step(r, i, k').events)|
    {
      ResourceStepReported(r, dir, name, env, k');
    }
    StepsReported(rs, |rs|, k, step, env.response);
  }

  /** A record after its directory: the harvest fetch and the resources report their answers. */
  lemma BodyReported(rec: Record, dir: string, env: Env, k: nat)
    ensures var b := RecordBody(rec, dir, env, k);
      Reported(b.events, k, env.response) && b.next == k + |Requests(b.events)|
  {
    match rec.extras
    case None =>
      NoRequests([Log(MissingExtrasNote)], k, env.response);
    case Some(extras) =>
      var h := HarvestStage(extras, dir, env, k);
      HarvestStageReported(extras, dir, env, k);
      if h.abort.None? {
        var r := ResourcesStage(rec, dir, env, h.next);
        if rec.resources.Some? {
          ResourcesReported(rec.resources.value, dir, rec.name, env, h.next);
        } else {
          NoRequests(r.events, h.next, env.response);
        }
        ReportedAppend(h.events, r.events, k, env.response);
        RequestsAppend(h.events, r.events);
      }
  }

  /** One record reports every answer, and counts its requests. */
  lemma RecordStepReported(rec: Record, i: nat, env: Env, k: nat)
    ensures var t := RecordStep(rec, i, env, k);
      Reported(t.events, k, env.response) && t.next == k + |Requests(t.events)|
  {
    var head := [Log(FoundTitle(rec.title))] + DirectoryEvents(rec.name, i, env);
    var b := RecordBody(rec, ChosenDir(rec.name, i, env), env, k);
    NoRequests(head, k, env.response);
    BodyReported(rec, ChosenDir(rec.name, i, env), env, k);
    ReportedAppend(head, b.events, k, env.response);
    RequestsAppend(head, b.events);
  }

  /** The records loop reports every answer, its first request being the run's first. */
  lemma RecordsReported(recs: seq<Record>, env: Env)
    ensures Reported(RecordsUpTo(recs, |recs|, env).events, 0, env.response)
  {
    var step := (rec, i, k) => RecordStep(rec, i, env, k);
    forall rec: Record, i: nat, k': nat
      ensures Reported(step(rec, i, k').events, k', env.response) && step(rec, i, k').next == k' + |Requests(step(rec, i, k').events)|
    {
      RecordStepReported(rec, i, env, k');
    }
    StepsReported(recs, |recs|, 0, step, env.response);
  }

  /** Log lines around a reported trace keep it reported, with its requests numbered as before. */
  lemma FramedReported(head: seq<Event>, t: seq<Event>, tail: seq<Event>, k: nat, response: nat -> Option<nat>)
    requires forall i :: 0 <= i < |head| ==> head[i].Log?
    requires forall i :: 0 <= i < |tail| ==> tail[i].Log?
    requires Reported(t, k, response)
    ensures Reported(head + t + tail, k, response)
  {
    NoRequests(head, k, response);
    ReportedAppend(head, t, k, response);
    RequestsAppend(head, t);
    NoRequests(tail, k + |Requests(head + t)|, response);
    ReportedAppend(head + t, tail, k, response);
  }

  /**
   * A whole run: the line after the run's k-th request reports exactly the
   * oracle's k-th answer -- a success line with the size of a non-empty
   * file, or the `failed` line for a failure or an empty file.
   */
  lemma RunReportsResponses(env: Env, input: CatalogInput, startTime: string, endTime: string)
    ensures Reported(HarvestRun(env, input, startTime, endTime).events, 0, env.response)
  {
    var run := HarvestRun(env, input, startTime, endTime);
    if env.logOpens && input.Decoded? && input.results.Some? {
      var recs := input.results.value;
      var head := Preamble(startTime) + [Log(ReadIn(FileLocation))];
      var s := RecordsUpTo(recs, |recs|, env);
      RecordsReported(recs, env);
      if s.abort.None? {
        FramedReported(head, s.events, [Log(Ended(endTime))], 0, env.response);
      } else {
        FramedReported(head, s.events, [], 0, env.response);
        assert head + s.events + [] == run.events;
      }
    } else {
      NoRequests(run.events, 0, env.response);
    }
  }
}

=== FILE: plan.dfy ===
/**
 * The harvest plan: the effects a run has besides its log lines (directory
 * creations, cooldown sleeps, network requests), defined from the catalog and
 * the directory oracles alone, and the lemmas that the run does exactly this.
 */
module Plan {
  import opened Wrappers
  import opened Catalog
  import opened Layout
  import opened RunLog
  import opened Harvest

  /** The network requests of a trace, in order. */
  function Requests(t: seq<Event>): seq<Req>
  {
    if t == [] then []
    else Requests(t[..|t| - 1]) + (if t[|t| - 1].Request? then [t[|t| - 1].req] else [])
  }

  /** True when the record's first harvest entry has no `value`. */
  predicate HarvestValueMissing(extras: seq<Extra>)
  {
    FirstHarvest(extras).Some? && FirstHarvest(extras).value.value.None?
  }

  /**
   * Why a record ends the run, checked in the order the script meets the
   * cases: no `extras`, a first harvest entry without a value, no `resources`.
   */
  function FailReason(rec: Record): Option<AbortReason>
  {
    if rec.extras.None? then Some(NoExtras)
    else if HarvestValueMissing(rec.extras.value) then Some(NoHarvestValue)
    else if rec.resources.None? then Some(NoResources)
    else None
  }

  function DirPlan(name: string, i: nat, env: Env): seq<Event>
  {
    if env.dirExists(i) then [] else [MakeDirs(RecordDir(name))]
  }

  /** At most one request: the harvest object of the first harvest entry, without a cooldown. */
  function HarvestPlan(extras: seq<Extra>, dir: string): (p: seq<Event>)
  {
    match FirstHarvest(extras)
    case Some(Extra(_, Some(v))) => [Request(Req(HarvestObject, HarvestUrl(v), HarvestPath(dir)))]
    case _ => []
  }

  /** The index of the first of the first n items that has a reason to end the run. */
  function FirstFailing<T>(xs: seq<T>, n: nat, reason: T -> Option<AbortReason>): (f: Option<nat>)
    requires n <= |xs|
    ensures f.Some? ==> f.value < n && reason(xs[f.value]).Some?
    ensures forall j :: 0 <= j < n && (f.None? || j < f.value) ==> reason(xs[j]).None?
  {
    if n == 0 then None
    else if FirstFailing(xs, n - 1, reason).Some? then FirstFailing(xs, n - 1, reason)
    else if reason(xs[n - 1]).Some? then Some(n - 1)
    else None
  }

  /** The plans of the first n items, concatenated in order, up to and including the first that ends the run. */
  function PlansUpTo<T>(xs: seq<T>, n: nat, plan: (T, nat) -> seq<Event>, reason: T -> Option<AbortReason>): seq<Event>
    requires n <= |xs|
  {
    if n == 0 then []
    else if FirstFailing(xs, n - 1, reason).Some? then PlansUpTo(xs, n - 1, plan, reason)
    else PlansUpTo(xs, n - 1, plan, reason) + plan(xs[n - 1], n - 1)
  }

  /** A resource with a truthy url: a cooldown, then its request; otherwise nothing. */
  function ResourceItemPlan(r: ResourceRef, dir: string, name: string): seq<Event>
  {
    if Truthy(r.url) then [Sleep(CooldownTime), Request(Req(Resource, r.url.value, ResourcePath(dir, name, r)))] else []
  }

  /** The item plans of the resources, in list order; a resource never ends the run. */
  function ResourcePlan(rs: seq<ResourceRef>, dir: string, name: string): seq<Event>
  {
    PlansUpTo(rs, |rs|, (r, i) => ResourceItemPlan(r, dir, name), r => None)
  }

  function ResourcesStagePlan(rec: Record, dir: string): seq<Event>
  {
    match rec.resources
    case None => []
    case Some(rs) => ResourcePlan(rs, dir, rec.name)
  }

  function BodyPlan(rec: Record, dir: string): seq<Event>
  {
    match rec.extras
    case None => []
    case Some(extras) =>
      if HarvestValueMissing(extras) then [] else HarvestPlan(extras, dir) + ResourcesStagePlan(rec, dir)
  }

  /** What record i does besides logging, up to the point where it ends the run if it does. */
  function RecordPlan(rec: Record, i: nat, env: Env): seq<Event>
  {
    DirPlan(rec.name, i, env) + BodyPlan(rec, ChosenDir(rec.name, i, env))
  }

  /** The first of the first n records that ends the run. */
  function FirstFailure(recs: seq<Record>, n: nat): Option<nat>
    requires n <= |recs|
  {
    FirstFailing(recs, n, FailReason)
  }

  /** The plans of the first n records, up to and including the first record that fails. */
  function PlanUpTo(recs: seq<Record>, n: nat, env: Env): seq<Event>
    requires n <= |recs|
  {
    PlansUpTo(recs, n, (rec, i) => RecordPlan(rec, i, env), FailReason)
  }

  lemma {:induction false} RequestsAppend(a: seq<Event>, b: seq<Event>)
    ensures Requests(a + b) == Requests(a) + Requests(b)
  {
    if b != [] {
      assert (a + b)[..|a + b| - 1] == a + b[..|b| - 1];
      RequestsAppend(a, b[..|b| - 1]);
    } else {
      assert a + b == a;
    }
  }

  lemma {:induction false} FirstHarvestPrefix(extras: seq<Extra>, n: nat)
    requires n <= |extras| && FirstHarvest(extras[..n]).Some?
    ensures FirstHarvest(extras) == FirstHarvest(extras[..n])
  {
    if n < |extras| {
      assert extras[..|extras| - 1][..n] == extras[..n];
      FirstHarvestPrefix(extras[..|extras| - 1], n);
    } else {
      assert extras[..n] == extras;
    }
  }

  /** The scan finds nothing exactly when no entry is keyed `harvest_object_id`. */
  lemma {:induction false} FirstHarvestNone(extras: seq<Extra>)
    ensures FirstHarvest(extras) == None <==> forall j :: 0 <= j < |extras| ==> !IsHarvestEntry(extras[j])
  {
    if extras != [] {
      var init := extras[..|extras| - 1];
      FirstHarvestNone(init);
      assert forall j :: 0 <= j < |init| ==> init[j] == extras[j];
    }
  }

  /** An entry keyed `harvest_object_id` with none before it is the one the scan finds. */
  lemma {:induction false} FirstHarvestAt(extras: seq<Extra>, j: nat)
    requires j < |extras| && IsHarvestEntry(extras[j])
    requires forall j' :: 0 <= j' < j ==> !IsHarvestEntry(extras[j'])
    ensures FirstHarvest(extras) == Some(extras[j])
  {
    var init := extras[..|extras| - 1];
    if j < |init| {
      assert init[j] == extras[j];
      FirstHarvestAt(init, j);
    } else {
      FirstHarvestNone(init);
    }
  }

  /** What the scan finds is an entry keyed `harvest_object_id` with none before it. */
  lemma {:induction false} FirstHarvestFound(extras: seq<Extra>)
    requires FirstHarvest(extras).Some?
    ensures exists j ::
      0 <= j < |extras| && extras[j] == FirstHarvest(extras).value && IsHarvestEntry(extras[j]) &&
      forall j' :: 0 <= j' < j ==> !IsHarvestEntry(extras[j'])
  {
    var init := extras[..|extras| - 1];
    if FirstHarvest(init).Some? {
      FirstHarvestFound(init);
      var j :| 0 <= j < |init| && init[j] == FirstHarvest(init).value && IsHarvestEntry(init[j]) &&
        forall j' :: 0 <= j' < j ==> !IsHarvestEntry(init[j']);
      assert extras[j] == init[j];
      assert forall j' :: 0 <= j' < j ==> extras[j'] == init[j'];
    } else {
      FirstHarvestNone(init);
      assert extras[|init|] == FirstHarvest(extras).value;
    }
  }

  /**
   * The harvest scan honours exactly the first entry keyed
   * `harvest_object_id`; later ones are ignored.
   */
  lemma {:induction false} FirstHarvestIsFirst(extras: seq<Extra>, e: Extra)
    ensures FirstHarvest(extras) == Some(e) <==>
      exists j :: 0 <= j < |extras| && extras[j] == e && IsHarvestEntry(e) &&
        forall j' :: 0 <= j' < j ==> !IsHarvestEntry(extras[j'])
    ensures FirstHarvest(extras) == None <==> forall j :: 0 <= j < |extras| ==> !IsHarvestEntry(extras[j])
  {
    FirstHarvestNone(extras);
    if FirstHarvest(extras) == Some(e) {
      FirstHarvestFound(extras);
    }
    if exists j :: 0 <= j < |extras| && extras[j] == e && IsHarvestEntry(e) && forall j' :: 0 <= j' < j ==> !IsHarvestEntry(extras[j']) {
      var j :| 0 <= j < |extras| && extras[j] == e && IsHarvestEntry(e) && forall j' :: 0 <= j' < j ==> !IsHarvestEntry(extras[j']);
      FirstHarvestAt(extras, j);
    }
  }

  lemma RequestsOfPair(q: Req)
    ensures Requests([Sleep(CooldownTime), Request(q)]) == [q]
  {
    var pair := [Sleep(CooldownTime), Request(q)];
    assert pair[..1] == [Sleep(CooldownTime)];
    assert [Sleep(CooldownTime)][..0] == [];
    assert Requests([Sleep(CooldownTime)]) == Requests([]) + [];
    assert Requests(pair) == Requests(pair[..1]) + [q];
  }

  lemma ResourceStepFacts(r: ResourceRef, dir: string, name: string, env: Env, k: nat)
    ensures var t := ResourceStep(r, dir, name, env, k);
      && Effects(t.events) == ResourceItemPlan(r, dir, name)
      && t.next == k + |Requests(ResourceItemPlan(r, dir, name))|
      && t.abort == None
  {
    var t := ResourceStep(r, dir, name, env, k);
    if Truthy(r.url) {
      var q := Req(Resource, r.url.value, ResourcePath(dir, name, r));
      var e := t.events;
      assert e == [Sleep(CooldownTime), Request(q), e[2]];
      assert e[..2] == [Sleep(CooldownTime), Request(q)];
      assert e[..2][..1] == [Sleep(CooldownTime)];
      assert [Sleep(CooldownTime)][..0] == [];
      assert Effects(e[..2]) == [Sleep(CooldownTime), Request(q)];
      assert e[..3] == e;
      RequestsOfPair(q);
    } else {
      assert t.events[..0] == [];
    }
  }

  /** A cooldown, a resource request and the line that reports it, in that order, are paced. */
  lemma PacedTriple(q: Req, line: Line)
    requires q.kind == Resource && Answers(q, line) && NonEmptySuccess(line) && !line.Ended?
    ensures Paced([Sleep(CooldownTime), Request(q), Log(line)])
  {
  }

  lemma ResourceStepPaced(r: ResourceRef, dir: string, name: string, env: Env, k: nat)
    ensures Paced(ResourceStep(r, dir, name, env, k).events)
  {
    if Truthy(r.url) {
      var url := r.url.value;
      var path := ResourcePath(dir, name, r);
      var q := Req(Resource, url, path);
      var f := GetResource(Resource, url, path, env, k);
      assert f.events == [Request(q)];
      var line := if Succeeded(f.resp) then ResourceSucceeded(url, path, f.resp.value) else ResourceFailed(url, path);
      PacedTriple(q, line);
      assert ResourceStep(r, dir, name, env, k).events == [Sleep(CooldownTime), Request(q), Log(line)];
    } else {
      LogOnlyFacts([Log(NoUrl)]);
    }
  }

  /** The resources do what the resource plan says, and never end the run. */
  lemma ResourcesFollowPlan(rs: seq<ResourceRef>, dir: string, name: string, env: Env, k: nat)
    ensures var s := ResourcesUpTo(rs, |rs|, dir, name, env, k);
      && Effects(s.events) == ResourcePlan(rs, dir, name)
      && s.next == k + |Requests(ResourcePlan(rs, dir, name))|
      && s.abort == None
      && Paced(s.events)
  {
    var step := (r, i, k') => ResourceStep(r, dir, name, env, k');
    var plan := (r, i) => ResourceItemPlan(r, dir, name);
    var never: ResourceRef -> Option<AbortReason> := r => None;
    forall r: ResourceRef, i: nat, k': nat
      ensures Effects(step(r, i, k').events) == plan(r, i)
      ensures step(r, i, k').next == k' + |Requests(plan(r, i))|
      ensures step(r, i, k').abort == never(r)
      ensures Paced(step(r, i, k').events)
    {
      ResourceStepFacts(r, dir, name, env, k');
      ResourceStepPaced(r, dir, name, env, k');
    }
    StepsFollowPlans(rs, |rs|, k, step, plan, never);
    StepsCountRequests(rs, |rs|, k, step, plan, never);
    StepsAbort(rs, |rs|, k, step, never);
    StepsPaced(rs, |rs|, k, step);
  }

  lemma HarvestStageFacts(extras: seq<Extra>, dir: string, env: Env, k: nat)
    ensures var h := HarvestStage(extras, dir, env, k);
      && (h.abort.Some? <==> HarvestValueMissing(extras))
      && (h.abort.Some? ==> h.abort.value == NoHarvestValue && h.events == [])
      && (!HarvestValueMissing(extras) ==> Effects(h.events) == HarvestPlan(extras, dir))
      && h.next == k + |Requests(Effects(h.events))|
      && Paced(h.events)
  {
    var h := HarvestStage(extras, dir, env, k);
    match FirstHarvest(extras)
    case None =>
    case Some(e) =>
      if e.value.Some? {
        var q := Req(HarvestObject, HarvestUrl(e.value.value), HarvestPath(dir));
        assert h.events == [Request(q), h.events[1]];
        assert h.events[..1] == [Request(q)];
        assert [Request(q)][..0] == [];
      }
  }

  lemma DirectoryPaced(name: string, i: nat, env: Env)
    ensures Paced(DirectoryEvents(name, i, env))
  {
  }

  lemma EffectsOfLine(l: Line)
    ensures Effects([Log(l)]) == []
  {
    assert [Log(l)][..0] == [];
  }

  lemma EffectsOfOne(e: Event)
    ensures Effects([e]) == if e.Log? then [] else [e]
  {
    assert [e][..0] == [];
  }

  lemma DirectoryFacts(name: string, i: nat, env: Env)
    ensures Effects(DirectoryEvents(name, i, env)) == DirPlan(name, i, env)
    ensures Requests(DirPlan(name, i, env)) == []
  {
    var d := RecordDir(name);
    var e := DirectoryEvents(name, i, env);
    EffectsOfOne(MakeDirs(d));
    if env.dirExists(i) {
      EffectsOfOne(Log(FoundExistingDir(d)));
    } else if env.mkdirOk(i) {
      EffectsOfOne(Log(CreatedDir(d)));
      assert e == [MakeDirs(d)] + [Log(CreatedDir(d))];
      EffectsAppend([MakeDirs(d)], [Log(CreatedDir(d))]);
    } else {
      EffectsOfOne(Log(CantCreateDir(d)));
      EffectsOfOne(Log(WritingToParent(FilePath)));
      assert e == [MakeDirs(d)] + [Log(CantCreateDir(d))] + [Log(WritingToParent(FilePath))];
      EffectsAppend([MakeDirs(d)], [Log(CantCreateDir(d))]);
      EffectsAppend([MakeDirs(d)] + [Log(CantCreateDir(d))], [Log(WritingToParent(FilePath))]);
    }
    if !env.dirExists(i) {
      assert [MakeDirs(d)][..0] == [];
    }
  }

  lemma LogOnlyFacts(e: seq<Event>)
    requires forall j :: 0 <= j < |e| ==> e[j].Log? && NonEmptySuccess(e[j].line) && !e[j].line.Ended?
    ensures Effects(e) == [] && Paced(e)
  {
    if e != [] {
      LogOnlyFacts(e[..|e| - 1]);
    }
  }

  lemma ResourcesStageFollowsPlan(rec: Record, dir: string, env: Env, k: nat)
    ensures var t := ResourcesStage(rec, dir, env, k);
      && Effects(t.events) == ResourcesStagePlan(rec, dir)
      && t.next == k + |Requests(ResourcesStagePlan(rec, dir))|
      && t.abort == (if rec.resources.None? then Some(NoResources) else None)
  {
    if rec.resources.Some? {
      var rs := rec.resources.value;
      ResourcesFollowPlan(rs, dir, rec.name, env, k);
      assert rs[..|rs|] == rs;
    }
  }

  lemma BodyFollowsPlan(rec: Record, dir: string, env: Env, k: nat)
    ensures var t := RecordBody(rec, dir, env, k);
      && Effects(t.events) == BodyPlan(rec, dir)
      && t.next == k + |Requests(BodyPlan(rec, dir))|
      && t.abort == FailReason(rec)
  {
    match rec.extras
    case None =>
      EffectsOfLine(MissingExtrasNote);
    case Some(extras) =>
      HarvestStageFacts(extras, dir, env, k);
      var h := HarvestStage(extras, dir, env, k);
      if h.abort.None? {
        ResourcesStageFollowsPlan(rec, dir, env, h.next);
        var r := ResourcesStage(rec, dir, env, h.next);
        EffectsAppend(h.events, r.events);
        RequestsAppend(HarvestPlan(extras, dir), ResourcesStagePlan(rec, dir));
      }
  }

  /** Record i does what its record plan says, and ends the run exactly when it fails. */
  lemma RecordStepFollowsPlan(rec: Record, i: nat, env: Env, k: nat)
    ensures var t := RecordStep(rec, i, env, k);
      && Effects(t.events) == RecordPlan(rec, i, env)
      && t.next == k + |Requests(RecordPlan(rec, i, env))|
      && t.abort == FailReason(rec)
  {
    var dir := ChosenDir(rec.name, i, env);
    var title := [Log(FoundTitle(rec.title))];
    var d := DirectoryEvents(rec.name, i, env);
    var b := RecordBody(rec, dir, env, k);
    EffectsOfLine(FoundTitle(rec.title));
    DirectoryFacts(rec.name, i, env);
    BodyFollowsPlan(rec, dir, env, k);
    EffectsAppend(title, d);
    EffectsAppend(title + d, b.events);
    RequestsAppend(DirPlan(rec.name, i, env), BodyPlan(rec, dir));
  }

  lemma BodyPaced(rec: Record, dir: string, env: Env, k: nat)
    ensures Paced(RecordBody(rec, dir, env, k).events)
  {
    match rec.extras
    case None =>
      LogOnlyFacts([Log(MissingExtrasNote)]);
    case Some(extras) =>
      HarvestStageFacts(extras, dir, env, k);
      var h := HarvestStage(extras, dir, env, k);
      if h.abort.None? {
        if rec.resources.Some? {
          var rs := rec.resources.value;
          ResourcesFollowPlan(rs, dir, rec.name, env, h.next);
        } else {
          assert h.events + [] == h.events;
        }
        PacedAppend(h.events, ResourcesStage(rec, dir, env, h.next).events);
      }
  }

  lemma RecordStepPaced(rec: Record, i: nat, env: Env, k: nat)
    ensures Paced(RecordStep(rec, i, env, k).events)
  {
    var title := [Log(FoundTitle(rec.title))];
    var d := DirectoryEvents(rec.name, i, env);
    LogOnlyFacts(title);
    DirectoryPaced(rec.name, i, env);
    BodyPaced(rec, ChosenDir(rec.name, i, env), env, k);
    PacedAppend(title, d);
    PacedAppend(title + d, RecordBody(rec, ChosenDir(rec.name, i, env), env, k).events);
  }

  /**
   * When each step ends the run with its item's reason, a stretch of steps
   * ends it with the reason of its first failing item, and only then.
   */
  lemma {:induction false} StepsAbort<T>(xs: seq<T>, n: nat, k: nat, step: (T, nat, nat) -> Step,
                                         reason: T -> Option<AbortReason>)
    requires n <= |xs|
    requires forall x: T, i: nat, k': nat :: step(x, i, k').abort == reason(x)
    ensures var f := FirstFailing(xs, n, reason);
      StepsUpTo(xs, n, k, step).abort == if f.Some? then reason(xs[f.value]) else None
  {
    if n > 0 {
      StepsAbort(xs, n - 1, k, step, reason);
    }
  }

  /** When every step does what its plan says, so does a stretch of steps, up to the first step that ends the run. */
  lemma {:induction false} StepsFollowPlans<T>(xs: seq<T>, n: nat, k: nat, step: (T, nat, nat) -> Step,
                                               plan: (T, nat) -> seq<Event>, reason: T -> Option<AbortReason>)
    requires n <= |xs|
    requires forall x: T, i: nat, k': nat :: Effects(step(x, i, k').events) == plan(x, i)
    requires forall x: T, i: nat, k': nat :: step(x, i, k').abort == reason(x)
    ensures Effects(StepsUpTo(xs, n, k, step).events) == PlansUpTo(xs, n, plan, reason)
  {
    if n > 0 {
      StepsFollowPlans(xs, n - 1, k, step, plan, reason);
      StepsAbort(xs, n - 1, k, step, reason);
      var s := StepsUpTo(xs, n - 1, k, step);
      if s.abort.None? {
        EffectsAppend(s.events, step(xs[n - 1], n - 1, s.next).events);
      }
    }
  }

  /** When every step issues the requests its plan lists, so does a stretch of steps. */
  lemma {:induction false} StepsCountRequests<T>(xs: seq<T>, n: nat, k: nat, step: (T, nat, nat) -> Step,
                                                 plan: (T, nat) -> seq<Event>, reason: T -> Option<AbortReason>)
    requires n <= |xs|
    requires forall x: T, i: nat, k': nat :: step(x, i, k').next == k' + |Requests(plan(x, i))|
    requires forall x: T, i: nat, k': nat :: step(x, i, k').abort == reason(x)
    ensures StepsUpTo(xs, n, k, step).next == k + |Requests(PlansUpTo(xs, n, plan, reason))|
  {
    if n > 0 {
      StepsCountRequests(xs, n - 1, k, step, plan, reason);
      StepsAbort(xs, n - 1, k, step, reason);
      var s := StepsUpTo(xs, n - 1, k, step);
      if s.abort.None? {
        RequestsAppend(PlansUpTo(xs, n - 1, plan, reason), plan(xs[n - 1], n - 1));
      }
    }
  }

  /** When every step is paced, so is a stretch of steps. */
  lemma {:induction false} StepsPaced<T>(xs: seq<T>, n: nat, k: nat, step: (T, nat, nat) -> Step)
    requires n <= |xs|
    requires forall x: T, i: nat, k': nat :: Paced(step(x, i, k').events)
    ensures Paced(StepsUpTo(xs, n, k, step).events)
  {
    if n > 0 {
      StepsPaced(xs, n - 1, k, step);
      var s := StepsUpTo(xs, n - 1, k, step);
      if s.abort.None? {
        PacedAppend(s.events, step(xs[n - 1], n - 1, s.next).events);
      }
    }
  }

  /**
   * The first n records do what the plan says, and end the run exactly at
   * the first record that fails, with that record's reason.
   */
  lemma RecordsFollowPlan(recs: seq<Record>, n: nat, env: Env)
    requires n <= |recs|
    ensures var s := RecordsUpTo(recs, n, env);
      && Effects(s.events) == PlanUpTo(recs, n, env)
      && s.next == |Requests(PlanUpTo(recs, n, env))|
      && s.abort == (var f := FirstFailure(recs, n); if f.Some? then FailReason(recs[f.value]) else None)
      && Paced(s.events)
  {
    var step := (rec, i, k) => RecordStep(rec, i, env, k);
    var plan := (rec, i) => RecordPlan(rec, i, env);
    forall rec: Record, i: nat, k: nat
      ensures Effects(step(rec, i, k).events) == plan(rec, i)
      ensures step(rec, i, k).next == k + |Requests(plan(rec, i))|
      ensures step(rec, i, k).abort == FailReason(rec)
      ensures Paced(step(rec, i, k).events)
    {
      RecordStepFollowsPlan(rec, i, env, k);
      RecordStepPaced(rec, i, env, k);
    }
    StepsFollowPlans(recs, n, 0, step, plan, FailReason);
    StepsCountRequests(recs, n, 0, step, plan, FailReason);
    StepsAbort(recs, n, 0, step, FailReason);
    StepsPaced(recs, n, 0, step);
  }
}

=== FILE: runlog.dfy ===
/**
 * What a run of the harvest script does, as a trace of events: the lines it
 * prints (through `printOut`, to the console and, once the log file is open,
 * appended to `log.txt` after a newline), the directories it asks to be
 * created, the cooldown sleeps and the network requests.
 */
module RunLog {
  import opened Wrappers
  import opened Decimal
  import opened Layout

  /** The lines the script prints; `Render` gives their exact text. */
  datatype Line =
    | Started(startTime: string)
    | CooldownNote(seconds: nat)
    | LogUnwritable(logPath: string)
    | ExitingUnlogged
    | ReadIn(location: string)
    | CantOpen(location: string)
    | Exiting
    | FoundTitle(title: string)
    | CreatedDir(dir: string)
    | CantCreateDir(dir: string)
    | WritingToParent(dir: string)
    | FoundExistingDir(dir: string)
    | MissingExtrasNote
    | HarvestSucceeded(size: nat)
    | HarvestFailed
    | MissingResourcesNote
    | NoUrl
    | ResourceSucceeded(url: string, path: string, size: nat)
    | ResourceFailed(url: string, path: string)
    | Ended(endTime: string)

  /** The status prefix of a resource download line. */
  function ResourceStatus(url: string, path: string): string
  {
    "Downloading " + url + " as " + path + " ... "
  }

  const HarvestStatus := "Downloading data.json ... "
  const FailedText := "failed. See log file for description"

  function Render(line: Line): string
  {
    match line
    case Started(t) => "Script started at " + t
    case CooldownNote(n) => "\nCooldown time between calls " + NatToString(n)
    case LogUnwritable(p) => "Error: Could not write to file: " + p
    case ExitingUnlogged => "Exiting script\n"
    case ReadIn(p) => "Read in file: " + p
    case CantOpen(p) => "Error: Can't open file: " + p
    case Exiting => "Exiting script"
    case FoundTitle(t) => "\nFound result title: " + t
    case CreatedDir(d) => "Created directory: " + d
    case CantCreateDir(d) => "Error: Can't create directory: " + d
    case WritingToParent(d) => "Warning: Writing to parent directory instead: " + d
    case FoundExistingDir(d) => "Found existing directory: " + d
    case MissingExtrasNote => "Could not find expected results in json file! Missing 'extras' section. Exiting"
    case HarvestSucceeded(n) => HarvestStatus + "success! file size " + NatToString(n) + " bytes"
    case HarvestFailed => HarvestStatus + FailedText
    case MissingResourcesNote => "Could not find exprected results in json file! Missing 'resources' section. Exiting"
    case NoUrl => "Could not find url for resource!"
    case ResourceSucceeded(u, p, n) => ResourceStatus(u, p) + "success! File size " + NatToString(n) + " bytes"
    case ResourceFailed(u, p) => ResourceStatus(u, p) + FailedText
    case Ended(t) => "\nScript ended at " + t
  }

  datatype FetchKind = HarvestObject | Resource

  /** One call of `getResource` that reaches the network. */
  datatype Req = Req(kind: FetchKind, url: string, path: string)

  datatype Event =
    | Log(line: Line)
    | MakeDirs(dir: string)
    | Sleep(seconds: nat)
    | Request(req: Req)

  /** The events of a trace that are not log lines, in order. */
  function Effects(t: seq<Event>): (e: seq<Event>)
    ensures forall i :: 0 <= i < |e| ==> !e[i].Log?
    ensures |e| <= |t|
  {
    if t == [] then []
    else Effects(t[..|t| - 1]) + (if t[|t| - 1].Log? then [] else [t[|t| - 1]])
  }

  /** Whether `line` reports the outcome of request `r`. */
  predicate Answers(r: Req, line: Line)
  {
    match r.kind
    case HarvestObject => line.HarvestSucceeded? || line.HarvestFailed?
    case Resource =>
      line == ResourceFailed(r.url, r.path) ||
      (line.ResourceSucceeded? && line.url == r.url && line.path == r.path)
  }

  /**
   * Whether `line` reports the answer `resp` truthfully: a success line with
   * size n exactly when a non-empty file of n bytes was saved, a `failed`
   * line when the download failed or saved an empty file.
   */
  predicate Reports(line: Line, resp: Option<nat>)
  {
    match line
    case HarvestSucceeded(n) => resp == Some(n) && n > 0
    case ResourceSucceeded(_, _, n) => resp == Some(n) && n > 0
    case HarvestFailed => resp.None? || resp.value == 0
    case ResourceFailed(_, _) => resp.None? || resp.value == 0
    case _ => false
  }

  /** A success line never reports an empty file. */
  predicate NonEmptySuccess(line: Line)
  {
    (line.HarvestSucceeded? || line.ResourceSucceeded?) ==> line.size > 0
  }

  /**
   * The pacing of a trace: each sleep is the cooldown and is followed by an
   * ordinary resource request; each ordinary request directly follows a
   * sleep; each request is directly followed by the line reporting it; every
   * success line reports a non-empty file; and the trace never logs the end
   * of the script.
   */
  predicate Paced(t: seq<Event>)
  {
    && (forall i :: 0 <= i < |t| && t[i].Sleep? ==>
          t[i].seconds == CooldownTime && i + 1 < |t| && t[i + 1].Request? && t[i + 1].req.kind == Resource)
    && (forall i :: 0 <= i < |t| && t[i].Request? && t[i].req.kind == Resource ==> 0 < i && t[i - 1].Sleep?)
    && (forall i :: 0 <= i < |t| && t[i].Request? ==> i + 1 < |t| && t[i + 1].Log? && Answers(t[i].req, t[i + 1].line))
    && (forall i :: 0 <= i < |t| && t[i].Log? ==> NonEmptySuccess(t[i].line) && !t[i].line.Ended?)
  }

  lemma {:induction false} EffectsAppend(a: seq<Event>, b: seq<Event>)
    ensures Effects(a + b) == Effects(a) + Effects(b)
  {
    if b != [] {
      var b' := b[..|b| - 1];
      assert (a + b)[..|a + b| - 1] == a + b';
      EffectsAppend(a, b');
    } else {
      assert a + b == a;
    }
  }

  /** Pacing survives concatenation. */
  lemma PacedAppend(a: seq<Event>, b: seq<Event>)
    requires Paced(a) && Paced(b)
    ensures Paced(a + b)
  {
    var t := a + b;
    forall i | 0 <= i < |t| && t[i].Sleep?
      ensures t[i].seconds == CooldownTime && i + 1 < |t| && t[i + 1].Request? && t[i + 1].req.kind == Resource
    {
      if i < |a| { assert a[i].Sleep?; } else { assert b[i - |a|].Sleep?; }
    }
    forall i | 0 <= i < |t| && t[i].Request? && t[i].req.kind == Resource
      ensures 0 < i && t[i - 1].Sleep?
    {
      if i < |a| { assert a[i].Request?; } else { assert b[i - |a|].Request?; }
    }
    forall i | 0 <= i < |t| && t[i].Request?
      ensures i + 1 < |t| && t[i + 1].Log? && Answers(t[i].req, t[i + 1].line)
    {
      if i < |a| { assert a[i].Request?; } else { assert b[i - |a|].Request?; }
    }
    forall i | 0 <= i < |t| && t[i].Log?
      ensures NonEmptySuccess(t[i].line) && !t[i].line.Ended?
    {
      if i < |a| { assert a[i].Log?; } else { assert b[i - |a|].Log?; }
    }
  }
}

=== FILE: title.dfy ===
/**
 * The title cleaner `re.sub('[^0-9a-zA-Z]+', '_', title)`, written as a scan
 * over characters: every maximal run of characters outside `[0-9a-zA-Z]`
 * becomes one underscore. The script computes the cleaned title for each
 * record but uses it nowhere; the logs and paths use the raw title and name.
 */
module TitleCleaner {

  predicate IsAlnum(c: char)
  {
    '0' <= c <= '9' || 'a' <= c <= 'z' || 'A' <= c <= 'Z'
  }

  /** Only ASCII letters, digits and underscores. */
  predicate CleanChars(s: string)
  {
    forall i :: 0 <= i < |s| ==> IsAlnum(s[i]) || s[i] == '_'
  }

  /** No two underscores in a row. */
  predicate NoDoubleUnderscore(s: string)
  {
    forall i :: 0 < i < |s| && s[i] == '_' ==> s[i - 1] != '_'
  }

  /** The letters and digits of `s`, in order. */
  function Alnums(s: string): string
  {
    if s == [] then [] else (if IsAlnum(s[0]) then [s[0]] else []) + Alnums(s[1..])
  }

  /**
   * The substitution applied to `s`, where `inRun` says the character just
   * before `s` was already part of a replaced run.
   */
  function Clean(s: string, inRun: bool): (r: string)
    ensures CleanChars(r) && NoDoubleUnderscore(r)
    ensures |r| <= |s|
    ensures inRun ==> r == [] || r[0] != '_'
    ensures s != [] && !inRun ==> r != []
  {
    if s == [] then []
    else if IsAlnum(s[0]) then [s[0]] + Clean(s[1..], false)
    else if inRun then Clean(s[1..], true)
    else "_" + Clean(s[1..], true)
  }

  function CleanTitle(title: string): (r: string)
    ensures CleanChars(r) && NoDoubleUnderscore(r)
    ensures |r| <= |title|
    ensures r == [] <==> title == []
  {
    Clean(title, false)
  }

  lemma {:induction false} CleanKeepsAlnums(s: string, inRun: bool)
    ensures Alnums(Clean(s, inRun)) == Alnums(s)
  {
    if s != [] {
      CleanKeepsAlnums(s[1..], !IsAlnum(s[0]));
      var rest := Clean(s[1..], !IsAlnum(s[0]));
      if IsAlnum(s[0]) {
        assert ([s[0]] + rest)[1..] == rest;
      } else if !inRun {
        assert ("_" + rest)[1..] == rest;
      }
    }
  }

  /** A string that is already clean is left as it is. */
  lemma {:induction false} CleanFixesClean(s: string, inRun: bool)
    requires CleanChars(s) && NoDoubleUnderscore(s)
    requires inRun ==> s == [] || s[0] != '_'
    ensures Clean(s, inRun) == s
  {
    if s != [] {
      assert CleanChars(s[1..]) && NoDoubleUnderscore(s[1..]) by {
        forall i | 0 < i < |s[1..]| && s[1..][i] == '_' ensures s[1..][i - 1] != '_' {
          assert s[i + 1] == '_';
        }
      }
      if |s| > 1 && s[0] == '_' {
        assert s[1] != '_';
      }
      CleanFixesClean(s[1..], !IsAlnum(s[0]));
      assert s == [s[0]] + s[1..];
    }
  }

  /**
   * The cleaned title keeps the title's letters and digits in order, and
   * cleaning it again changes nothing.
   */
  lemma CleanTitleProperties(title: string)
    ensures Alnums(CleanTitle(title)) == Alnums(title)
    ensures CleanTitle(CleanTitle(title)) == CleanTitle(title)
  {
    CleanKeepsAlnums(title, false);
    CleanFixesClean(CleanTitle(title), false);
  }

  /** Every character outside `[0-9a-zA-Z]` replaced by an underscore, one for one. */
  function Mark(s: string): (m: string)
    ensures |m| == |s|
    ensures forall i :: 0 <= i < |s| ==> m[i] == if IsAlnum(s[i]) then s[i] else '_'
  {
    if s == [] then [] else [if IsAlnum(s[0]) then s[0] else '_'] + Mark(s[1..])
  }

  /**
   * `m` with every underscore that directly follows an underscore dropped,
   * where `afterUnderscore` says the character just before `m` was one.
   */
  function Squash(m: string, afterUnderscore: bool): string
  {
    if m == [] then []
    else if m[0] == '_' && afterUnderscore then Squash(m[1..], true)
    else [m[0]] + Squash(m[1..], m[0] == '_')
  }

  /**
   * The substitution, stated independently: mark every character outside
   * `[0-9a-zA-Z]` with an underscore, then squash each run of marks to one.
   * So each maximal run of such characters becomes exactly one `_` in its
   * place, and everything else is kept.
   */
  lemma {:induction false} CleanIsSquashMark(s: string, inRun: bool)
    ensures Clean(s, inRun) == Squash(Mark(s), inRun)
  {
    if s != [] {
      var m := Mark(s);
      assert m[1..] == Mark(s[1..]);
      assert m[0] == '_' <==> !IsAlnum(s[0]);
      CleanIsSquashMark(s[1..], !IsAlnum(s[0]));
    }
  }

  /** A title cleans to its mark with each run of marks squashed to one. */
  lemma CleanTitleIsSquashMark(title: string)
    ensures CleanTitle(title) == Squash(Mark(title), false)
  {
    CleanIsSquashMark(title, false);
  }

  /** The separator between two words becomes one underscore; a run of separators does too. */
  lemma ExampleCleanTitle()
    ensures CleanTitle("a b") == "a_b"
    ensures CleanTitle("a, b") == "a_b"
  {
    assert "a b"[1..] == " b" && " b"[1..] == "b" && "b"[1..] == [];
    assert Clean("b", true) == "b";
    assert Clean(" b", false) == "_b";
    assert "a, b"[1..] == ", b" && ", b"[1..] == " b";
    assert Clean(" b", true) == "b";
    assert Clean(", b", false) == "_b";
  }
}

=== FILE: wrappers.dfy ===
/** The conventional Some/None datatype: a JSON member that may be missing. */
module Wrappers {
  datatype Option<+T> = None | Some(value: T)
}
